=== FILE: README.md ===
# AirCopy, storage translation and screenshot delta — a Dafny model

This project models four pieces of a handheld radio firmware:

- **AirCopy**: the radio-to-radio transfer of channel banks and settings.
  - The sender walks a *transfer map*, a list of segments of the logical
    EEPROM, 64 bytes at a time, once per countdown period.
  - Each block goes out as a 36-word packet: start marker, offset, 32 payload
    words, CRC, end marker. Words 1..34 are XOR-ed with a repeating 8-word key.
  - The receiver checks the modem status, the markers, the CRC and the
    offset, then stores the block with eight 8-byte EEPROM writes.
  - Every packet counts once, as a block or as an error. The session
    completes when `blocks + errors` reaches the map's block total.
  - The keys start a receive session (EXIT) or a send session (MENU), and
    UP/DOWN move the map cursor.
- **The progress screen arithmetic**:
  - the clamped progress in hundredths of a percent;
  - the per-block error bitmap;
  - the 120-column gauge;
  - the reset of a complete session to Ready when it is drawn.
- **The EEPROM compatibility layer**: the firmware's 16-bit logical EEPROM
  space is a fixed table of mappings onto a SPI flash.
  - Reads are split at mapping boundaries, and a miss reads as 0xFF.
  - 8-byte writes are split the same way, and writes to a miss are dropped.
- **The screenshot serialiser**:
  - the display is packed bit-plane by bit-plane into a 1024-byte frame;
  - the frame is compared with the previous frame in 128 chunks of 8 bytes;
  - the changed chunks, plus one rotating forced chunk, or every chunk on
    request, go out as a delta message
    `FF AA 55 02 len_hi len_lo {index b0..b7}* 0A`.

Modules follow the source:

| module | file | contents |
|---|---|---|
| `Common` | `common.dfy` | 16-bit words, wrap-around, little-endian bytes, bitwise XOR on integers |
| `EepromCompat` | `eeprom_compat.dfy` | `AddrTranslate`, `EEPROM_ReadBuffer`, `EEPROM_WriteBuffer` over an abstract flash |
| `AircopyMaps` | `aircopy_maps.dfy` | the segment/map catalog, the cursor, segment lookup, block accounting |
| `AircopyPacket` | `aircopy_packet.dfy` | packet layout, obfuscation, the receiver's decoding |
| `AircopySession` | `aircopy_session.dfy` | the session globals and `AIRCOPY_CheckComplete` |
| `Aircopy` | `aircopy.dfy` | `AIRCOPY_StorePacket`, `AIRCOPY_SendMessage`, the key handlers |
| `UiAircopy` | `ui_aircopy.dfy` | `UI_DisplayAircopy` arithmetic |
| `Screenshot` | `screenshot.dfy` | `getScreenShot` |

How the model is built:

- Integers stand in for the C types. `u8` and `u16` are ranges of `int`.
  Every `uint16_t` or `uint8_t` increment that can wrap in the source is
  wrapped explicitly (`Wrap16`, `Wrap8`).
- The XOR is defined bit by bit on integers.
- The global state of a session is one immutable `Session` value. An
  operation returns the new value.
- Calls into the radio chip become a list of `RadioOp`s.
- EEPROM writes from the receiver become a list of `WriteRequest`s.
- Bytes sent on the serial line become an output sequence.

## Model

| member | source | states |
|---|---|---|
| Common.Wrap16 | App/app/aircopy.h:93-94 | a 16-bit counter update leaves the value unchanged when it is in range and is congruent to it modulo 2^16 otherwise |
| Common.BytesWordsRoundTrip | App/app/aircopy.c:219-220 | 64 bytes read into the word buffer (little-endian) and viewed as bytes again are the same 64 bytes |
| Common.WordsBytesRoundTrip | App/app/aircopy.c:299-303 | the receiver's byte view of the 32 payload words, packed back into words, gives the same words |
| Common.XorInvolution | App/app/aircopy.c:224-226 | XOR-ing the same key word twice restores the word |
| Common.Xor16 | App/app/aircopy.c:225 | the XOR of two 16-bit words is a 16-bit word, and XOR-ing the key back in undoes it |
| AircopyMaps.BankSegments | App/app/aircopy.c:49-54 | a bank is 0x800 bytes of frequencies and 0x800 bytes of names, both written as words, then 0x100 bytes of attributes written as bytes |
| AircopyMaps.Catalog | App/app/aircopy.c:101-117 | the catalog holds one map per bank in bank order, followed by the settings map |
| AircopyMaps.NormalizeIndex | App/app/aircopy.c:124-130 | an out-of-range cursor is reset to 0 and an in-range cursor is kept |
| AircopyMaps.CurrentMap | App/app/aircopy.c:124-130 | the map returned is the catalog entry under the cursor when the cursor is in range, and the first entry (after the reset to 0) when it is not |
| AircopyMaps.Navigate | App/app/aircopy.c:426-440 | UP/DOWN leave the cursor inside the catalog; any other direction leaves it unchanged |
| AircopyMaps.NavigateInverse | App/app/aircopy.c:433-440 | one step forward and one step back cancel out, in either order |
| AircopyMaps.NavigateForwardTimes | App/app/aircopy.c:433-435 | `k` forward steps move the cursor `k` maps on, cyclically |
| AircopyMaps.NavigateFullCircle | App/app/aircopy.c:433-435 | a whole number of rounds through the catalog returns the cursor to its start |
| AircopyMaps.FindSegment | App/app/aircopy.c:144-157 | the result is the first segment containing the offset; none is returned exactly when no segment contains it |
| AircopyMaps.BankMapOk | App/app/aircopy.c:56-63 | a bank map's declared 68 blocks are exactly ceil(length/64) summed over its segments, and every segment can be walked without the 16-bit offset wrapping |
| AircopyMaps.SettingsMapOk | App/app/aircopy.c:86-96 | the settings map's declared 6 blocks cover 0xA000..0xA160 exactly |
| AircopyMaps.CatalogOk | App/app/aircopy.c:74-117 | in every build (2, 4, 6 or 8 banks), every map's total is 68 for a bank or 6 for the settings, and equals what walking it sends |
| AircopyPacket.Scramble | App/app/aircopy.c:224-226 | the obfuscation pass changes words 1..34 only; the markers are left alone |
| AircopyPacket.ScrambleInvolution | App/app/aircopy.c:262-264 | the receiver's pass undoes the sender's pass |
| AircopyPacket.Compose | App/app/aircopy.c:219-222 | word 1 is the offset, words 2..33 carry the payload bytes, and word 34 is the CRC of words 1..33 |
| AircopyPacket.BuildPacket | App/app/aircopy.c:219-226 | the packet keeps the markers and, de-scrambled, is exactly the composed buffer: offset, payload, CRC |
| AircopyPacket.Decode | App/app/aircopy.c:252-271 | a bad modem status or a wrong marker is rejected before de-scrambling; a CRC mismatch is reported only when word 34 disagrees with the CRC; a valid frame carries 64 payload bytes |
| AircopyPacket.BuildThenDecode | App/app/aircopy.c:219-226 | a packet built by the sender and received intact decodes to the same offset and payload |
| AircopyPacket.DecodeValidIsBuilt | App/app/aircopy.c:262-271 | every buffer the receiver accepts is exactly the packet the sender builds for the decoded offset and payload |
| AircopySession.CheckComplete | App/app/aircopy.c:159-171 | the state becomes Complete exactly when the 16-bit sum blocks+errors reaches the map total; otherwise the state is unchanged |
| AircopySession.ActiveMap | App/app/aircopy.c:124-130 | the active map satisfies the catalog's accounting invariant |
| Aircopy.StructMatchesBytes | App/app/aircopy.c:298-320 | the structured write path (data advanced by 4 words, offset by 8) issues the same eight calls with the same bytes as the byte-stream path |
| Aircopy.BytesWritesCarryPayload | App/app/aircopy.c:299-308 | the eight writes of an accepted block carry exactly its 64 payload bytes, at offset + 8i |
| Aircopy.BytesWrites | App/app/aircopy.c:299-308 | the byte-stream path issues eight writes; write `i` goes to the 16-bit truncation of offset + 8i and carries payload bytes 8i..8i+7 |
| Aircopy.StructWritesFrom | App/app/aircopy.c:310-320 | from write `i` on, the structured path issues one write per remaining 4-word group, write `j` at the 16-bit offset + 8j with the bytes of words 4(i+j)..4(i+j)+3; `Aircopy.StructMatchesBytes` shows this is the byte-stream path's list |
| Aircopy.CountError | App/app/aircopy.c:252-289 | a failed check counts one error, leaves the block count, writes nothing, passes its radio operations through, and re-checks completion |
| Aircopy.Receive | App/app/aircopy.c:241-250 | a full buffer handed over by the modem resets the write index; a frame that passes the marker check is left de-scrambled; an accepted block counts one block and issues its eight writes, anything else counts one error and writes nothing; completion is re-checked |
| Aircopy.StoreFrame | App/app/aircopy.c:252-323 | a bad frame re-arms the modem and counts an error; a CRC failure or an offset outside the map counts an error and writes nothing; an accepted block is written and counted; completion is re-checked either way |
| Aircopy.StoreBlock | App/app/aircopy.c:273-323 | an offset no segment contains counts an error; otherwise the block is written with the segment's write mode and counted |
| Aircopy.StorePacket | App/app/aircopy.c:241-323 | nothing happens before 36 words have arrived; then the write index is reset and the packet counts exactly once, as a block (eight writes of its payload) or as an error, with the radio operations of each path |
| Aircopy.SegmentFoundAfterValidation | App/app/aircopy.c:276-297 | once the validation loop has found the offset, the second segment lookup cannot fail |
| Aircopy.ReceiveStep | App/app/aircopy.c:241-323 | one reception adds one to exactly one of the two 16-bit counters, so the firmware's 16-bit blocks+errors moves on by one (exactly by one while it does not wrap); it keeps the active map, and completes the session exactly when the sum reaches the total |
| Aircopy.ReceiveRun | App/app/aircopy.c:159-171 | over any run of receptions, every reception counts once, and the session is complete exactly when blocks+errors has reached the total (without counter wrap) |
| Aircopy.SkipSegment | App/app/aircopy.c:200-207 | moving past an exhausted segment does not change the number of blocks left to send |
| Aircopy.SendOne | App/app/aircopy.c:234 | sending from inside a segment and moving the cursor 64 bytes on leaves one block fewer to send |
| Aircopy.SkipFinished | App/app/aircopy.c:200-207 | the skip loop leaves the blocks remaining unchanged and ends before the end of a segment or past the last one; a cursor that started inside its segment ends inside one, and one that started before its segment's end does not move |
| Aircopy.SendMessage | App/app/aircopy.c:177-239 | outside a transfer, and on every tick but the one the countdown reaches zero on, nothing happens but the countdown; a session with no block counted starts from the start of the first segment, any other from the sender's cursor, and a start cursor before the end of its segment is the offset sent; the session completes exactly when no block remains from the cursor; otherwise a block read at the cursor is sent, counted, and the countdown restarts at 30; with a cursor that belongs to the map, every block sent lies in the map, completion comes with blocks equal to the map total, and the cursor stays valid |
| Aircopy.SendDue | App/app/aircopy.c:200-236 | the tick the countdown expires on completes the session exactly when no block remains from the start cursor; a cursor already inside a segment sends from where it is; from a valid start every block lies in the map and completion comes at the map total |
| Aircopy.SendAt | App/app/aircopy.c:219-236 | the block sent holds the 64 bytes `EEPROM_ReadBuffer` returns at the cursor; the packet transmitted is the buffer built from them; the cursor moves 64 bytes on and the block count by one; a cursor inside its segment sends a block inside the map and keeps the accounting |
| Aircopy.StaleCursorAfterUp | App/app/aircopy.c:426-443 | pressing UP one block into a bank-0 send session leaves a send cursor that is valid for bank 0 and not for bank 1, and the next block goes out from 0x0040, outside bank 1's map |
| Aircopy.SentBlockIsStored | App/app/aircopy.c:299-308 | a block the sender puts on the air is written, with its own payload and offset, by a receiver on the same map that gets it intact |
| Aircopy.ExitPressed | App/app/aircopy.c:378-402 | EXIT with an empty input box starts a fresh receive session (counters, error bitmap and write index cleared; modem armed); otherwise it deletes one typed digit |
| Aircopy.MenuPressed | App/app/aircopy.c:404-424 | MENU starts a send session with the two markers and a zero offset in the buffer; the error counter is kept |
| Aircopy.ProcessKey | App/app/aircopy.c:445-483 | a held or released key does nothing; UP/DOWN only move the cursor, inside the catalog |
| Aircopy.UpDownInverse | App/app/aircopy.c:467-480 | UP then DOWN, or DOWN then UP, restores the cursor in either navigation build |
| Aircopy.FreshReceiveRun | App/app/aircopy.c:384-397 | from a freshly started receive session, any number `n` of receptions completes it exactly when `n` reaches the map total |
| Aircopy.CompleteStays | App/app/aircopy.c:159-171 | once a run of receptions has completed the session, no further reception takes it out of Complete |
| Aircopy.CountStep | App/app/aircopy.c:161 | counting one block or one error in 16-bit counters moves their 16-bit sum on by one |
| UiAircopy.SetBit | App/ui/aircopy.c:30-36 | `set_bit` sets bit `k` and leaves every other bit, as read by `get_bit`, unchanged |
| UiAircopy.Clamped | App/ui/aircopy.c:76-79 | the done count never exceeds the total, equals the total exactly when blocks+errors reaches it, and is exact below it |
| UiAircopy.Percent | App/ui/aircopy.c:76-81 | progress is at most 100.00% and is 100.00% exactly when blocks+errors reaches the total |
| UiAircopy.FullPercentIffComplete | App/ui/aircopy.c:81 | the screen shows 100.00% exactly when the session's own completion test fires |
| UiAircopy.ColumnBlock | App/ui/aircopy.c:143-144 | each gauge column stands for a block inside the map |
| UiAircopy.ColumnBlockMonotone | App/ui/aircopy.c:143-144 | columns further right never stand for earlier blocks |
| UiAircopy.GaugeFillsFromLeft | App/ui/aircopy.c:141-155 | without recorded errors, a full column has only full columns to its left |
| UiAircopy.GaugeFullWhenDone | App/ui/aircopy.c:136-155 | without recorded errors, a finished transfer fills every column |
| UiAircopy.DrawGauge | App/ui/aircopy.c:89-155 | once blocks are processed, a column is full exactly when its block is processed and has no recorded error; every other column is the empty frame cell when the step is set or blocks are processed, and blank otherwise |
| UiAircopy.Render | App/ui/aircopy.c:44-155 | drawing a complete session returns it to Ready; the title reflects the state before that; the map index is normalised; a change in the error count during a transfer with blocks processed marks the last processed block and records the new count; nothing else in the session changes; the progress line stays on screen only during a transfer with the step set; a gauge column is full exactly during a transfer, for a processed block with no recorded error; every other column is the empty frame cell when the step is set or blocks have been processed, and blank otherwise |
| UiAircopy.GetBit | App/ui/aircopy.c:34-36 | `get_bit` reads 1 exactly when bit `k % 8` of byte `k / 8` is set |
| UiAircopy.Gauge | App/ui/aircopy.c:141-155 | a gauge column is full exactly when its block is processed and has no error recorded; every other column is empty |
| EepromCompat.MkMapping | App/driver/eeprom_compat.c:38 | an entry written as (physical, from, to) covers exactly `[from, to)` |
| EepromCompat.TableWellFormed | App/driver/eeprom_compat.c:40-67 | the table's entries are non-empty, inside the 16-bit space, below the hole address, and ordered without overlap, both logically and physically |
| EepromCompat.AddrTranslate | App/driver/eeprom_compat.c:113-144 | a miss gives the hole and the whole size; a hit gives the matching physical address and the size clipped at the entry's end, and reports whether the clip reached that end |
| EepromCompat.ReadThrough | App/driver/eeprom_compat.c:71-90 | every byte read is the logical byte up to the first unmapped address, and 0xFF from there on |
| EepromCompat.ReadBuffer | App/driver/eeprom_compat.c:71-90 | the same for the firmware's own table |
| EepromCompat.ReadIsLogicalWithoutGap | App/driver/eeprom_compat.c:78-81 | a read whose range has no mapped byte after an unmapped one returns exactly the logical bytes |
| EepromCompat.ReadAcrossGapIsBlank | App/driver/eeprom_compat.c:125-127 | a read starting just below the VFO region returns 0xFF for VFO bytes that are backed by flash |
| EepromCompat.Program | App/driver/eeprom_compat.c:105 | programming a run of bytes changes exactly those cells |
| EepromCompat.WriteThrough | App/driver/eeprom_compat.c:92-111 | the device writes issued are exactly the translated pieces that land in flash, in order, each with its slice of the data and the append hint "piece reaches its mapping's end"; after the write the backed bytes before the first unmapped address hold the data, every other logical byte is unchanged, and only their flash cells differ |
| EepromCompat.WriteOne | App/driver/eeprom_compat.c:98-110 | one pass of the write loop advances by a non-empty piece that fits the remaining size, issues that piece's device write (if any) as the next part of the trace, and extends the written prefix by it |
| EepromCompat.WriteBuffer | App/driver/eeprom_compat.c:92-111 | the same for the firmware's own table; nothing is programmed at the hole |
| EepromCompat.SinglePieceWrite | App/driver/eeprom_compat.c:97-143 | a write inside one mapping is one device write of all 8 bytes at the translated address, with the append hint set exactly when the write ends at the mapping's end |
| EepromCompat.WriteThenRead | App/driver/eeprom_compat.c:71-111 | reading back an 8-byte write returns the data up to the first unmapped address and 0xFF after it; logical bytes outside the range are unchanged |
| Screenshot.PackRangeBit | App/screenshot.c:58-59 | bit `j` of a packed byte is the `j`-th bit packed |
| Screenshot.PackStream | App/screenshot.c:56-84 | the accumulator loop produces byte `k` from stream bits `8k..8k+7`, least significant first, and flushes a partial last byte |
| Screenshot.Frame | App/screenshot.c:56-87 | the display always packs to exactly 1024 bytes, so the length check never fires |
| Screenshot.FrameBitIsStreamBit | App/screenshot.c:56-81 | every bit of the stream, status line first and then lines 0..6 plane by plane, can be read back from the frame |
| Screenshot.ViewRecoversDisplay | App/screenshot.c:56-81 | a viewer reassembling the eight bit planes of a column gets back that column's display byte |
| Screenshot.SelectedFrom | App/screenshot.c:94-106 | a chunk is listed exactly when it changed, is the forced chunk, or a full update was requested |
| Screenshot.SelectedAscending | App/screenshot.c:94-106 | chunks are listed in ascending order, each once |
| Screenshot.ForceSelectsAll | App/screenshot.c:100-103 | a full update lists every chunk |
| Screenshot.OnlyForcedSelected | App/screenshot.c:98-103 | an unchanged frame without a full update lists only the forced chunk |
| Screenshot.ApplyRecords | App/screenshot.c:131-143 | copying the records of the listed chunks replaces exactly those chunks |
| Screenshot.DeltaRebuildsFrame | App/screenshot.c:131-143 | after the records are copied over the previous frame it equals the current frame |
| Screenshot.SplitConcat | App/screenshot.c:129-139 | the 9-byte records sent back to back can be split apart again |
| Screenshot.MessageLayout | App/screenshot.c:116-146 | a message is the marker, the sync bytes and format 2, a big-endian length equal to the body length, the 9-byte records, and 0x0A |
| Screenshot.GetScreenShot | App/screenshot.c:30-111 | a held lock only counts down; the keep-alive counter is refilled by the cable and stops output when it runs out; a live call moves the forced chunk on; nothing sent means the previous frame is untouched |
| Screenshot.Capture | App/screenshot.c:54-146 | a capture moves the forced chunk on, and changes the previous frame only when it sends something |
| Screenshot.SendDelta | App/screenshot.c:89-146 | an empty selection sends nothing and keeps the previous frame; otherwise at least one framed record goes out |
| Screenshot.LiveShot | App/screenshot.c:39-52 | past the lock and the keep-alive counter, a call sends exactly the delta of the current frame against the previous frame |
| Screenshot.ShotFraming | App/screenshot.c:110-146 | every message is framed correctly, and a live call with an in-range forced chunk always sends at least one record |
| Screenshot.ViewerTracksFrame | App/screenshot.c:128-146 | a viewer that holds the sender's previous frame and applies the received records ends with the current frame, and so does the sender's copy |
| Screenshot.ForceSendsEverything | App/screenshot.c:100-104 | a live full update sends all 128 chunks: 7 framing bytes plus 1152 record bytes |
| Screenshot.UnchangedSendsForcedChunk | App/screenshot.c:98-108 | with nothing changed, a live call sends exactly the forced chunk, and the next call forces the next chunk |

## Left out

- The CRC routine (`CRC_Calculate`) is not part of this model. It is a parameter: any function of the 33 covered words.
- The radio chip is not modelled. Its status register is an input, and the calls made on it are an output trace of `RadioOp`s. The modem interrupt that fills `g_FSK_Buffer` and advances `gFSKWriteIndex` is an input too: `Receive` hands over a complete buffer.
- `AIRCOPY_Key_DIGITS` (`App/app/aircopy.c:330-376`) is left out. It parses a typed frequency and retunes the radio, which is VFO and radio configuration outside the transfer logic. Only the digit count it leaves behind (`inputIndex`) is modelled, because EXIT uses it.
- Text, font rendering, the frequency display and the memory-range caption of the progress screen are left out. Only the values they are computed from are modelled: title state, percentage, gauge bytes.
- `gUpdateDisplay`, `gRequestDisplayScreen` and `ST7565_BlitFullScreen` are display scheduling with no effect on the transfer, so they are left out.
- The `getScreenShot` calls made from `AIRCOPY_clear`, `AIRCOPY_CheckComplete` and `AIRCOPY_SendMessage` are not threaded through the AirCopy model. The serialiser is modelled once, on its own, as `Screenshot.GetScreenShot`.
- The UART is the output sequence of a call, and cable detection is a boolean input. `gUART_LockScreenshot` is a counter kept in the serialiser's state.
- The flash driver (`PY25Q16_ReadBuffer`/`PY25Q16_WriteBuffer`) is not part of this model. Reads return the stored cells. Writes overwrite the cells, with no erase-before-program or sector-buffering effects. The append hint is passed through but has no effect.
- The transfer catalog is fixed at the 8-bank (1024-channel) build. `AircopyMaps.CatalogOk` covers all four build sizes.
- Aircopy.SendMessage: its contract states the packet contents and not the round trip through the receiver. That property is `AircopyPacket.BuildThenDecode` together with `Aircopy.SentBlockIsStored`.
- Aircopy.ReceiveRun: the statement assumes `blocks + errors` does not wrap past 65535 during the run. With the maps' totals of 68 and 6, a run reaches completion long before that.
- Aircopy.MenuPressed: `GUI_DisplayScreen` is not part of this model. The model assumes it draws the AirCopy screen (`UI_DisplayAircopy`), so it applies `UiAircopy.Render` to the prepared session before the state becomes Transfer. If it drew another screen, the Render effects on the session (cursor normalisation, error-bit marking, acknowledging a complete session) would not happen there.
- Aircopy.ExitPressed: the typed digit is cleared to the value 10 in `gInputBox`; the input box contents are not modelled, only its length.
- Two defensive branches of the source cannot be reached, and the model proves it:
  - the second segment lookup failing (`App/app/aircopy.c:293-297`): see `Aircopy.SegmentFoundAfterValidation`;
  - the frame length check (`App/screenshot.c:86-87`): see `Screenshot.Frame`.

## Notes on behaviour

These describe the code as written.

- EXIT with an empty input box does not abort to Ready. It (re)starts a
  receive session in the Transfer state, clearing the counters, the error
  bitmap and the write index.
- MENU starts a send session but does not clear the error counter. Any
  rendering done inside it (`GUI_DisplayScreen`) runs before the state is
  set to Transfer.
- A read that starts at an unmapped address gets the whole remaining request
  from the hole. Mapped bytes after the gap therefore also read as 0xFF.
  `EepromCompat.ReadAcrossGapIsBlank` shows this for a read starting at
  0x8FF8 and running into the VFO region at 0x9000. Writes behave the same
  way: an 8-byte write starting in a gap programs nothing.
- The send countdown is an 8-bit static variable. At the tick that finishes
  a session it is already 0. The first tick of the next session decrements
  it to 255, so that session's first block goes out on its 256th tick.
- The progress percentage is computed after a complete session has been
  reset to Ready, from blocks+errors and the active map's total alone. It
  is printed only when the step is non-zero, and a Ready screen, which
  includes a just-completed one, clears that line and prints the memory
  caption over it. So the percentage stays on screen only during a
  transfer. A Ready screen's gauge shows no processed blocks.
- UP and DOWN move the map cursor even during a send session, and the send
  cursor is not reset. Once a block has been counted, the next tick carries
  on from the old offset within the new map's segment list.
  `Aircopy.StaleCursorAfterUp` shows a bank-0 session that, after UP, sends
  offset 0x0040, which bank 1's map does not contain.
=== FILE: aircopy.dfy ===
/**
 * The AirCopy transfer itself: the receive path that checks and stores one
 * packet, the send path that walks the active map 64 bytes at a time, and
 * the keys that start sessions and move the map cursor.
 *
 * Storage writes are returned as requests, one per `EEPROM_WriteBuffer`
 * call, in call order; reads go through the logical-EEPROM model. The radio
 * is an input (the modem status word) and an output trace of operations.
 */
module Aircopy {
  import opened Common
  import opened EepromCompat
  import opened AircopyMaps
  import opened AircopyPacket
  import opened AircopySession
  import opened UiAircopy

  /** Radio operations the transfer performs, in order. */
  datatype RadioOp = PrepareFskReceive | ResetFsk | SetTxParameters | SendFsk(packet: seq<u16>) | AmplifierOff

  // ---------------------------------------------------------------------
  // Storage writes of one accepted block
  // ---------------------------------------------------------------------

  /** One `EEPROM_WriteBuffer(address, data)` call: 8 bytes. */
  datatype WriteRequest = WriteRequest(address: u16, data: seq<u8>)

  /** The byte-stream path: eight writes at `offset + 8 i`, truncated to the
      16-bit parameter, each carrying payload bytes `8 i .. 8 i + 7`. */
  function BytesWrites(offset: u16, payload: seq<u8>): (w: seq<WriteRequest>)
    requires |payload| == PAYLOAD_BYTES
    ensures |w| == 8
    ensures forall i :: 0 <= i < 8 ==> w[i].address == Wrap16(offset + 8 * i) && w[i].data == payload[8 * i..8 * i + 8]
  {
    seq(8, i requires 0 <= i < 8 => WriteRequest(Wrap16(offset + 8 * i), payload[8 * i..8 * i + 8]))
  }

  /** The structured path: the data advanced by 4 words and a 16-bit offset
      advanced by 8, from write `i` on. */
  function StructWritesFrom(offset: u16, words: seq<u16>, i: nat): (w: seq<WriteRequest>)
    requires |words| == 32 && i <= 8
    decreases 8 - i
    ensures |w| == 8 - i
    ensures forall j :: 0 <= j < 8 - i ==>
              w[j].address == Wrap16(offset + 8 * j) && w[j].data == WordsToBytes(words[4 * (i + j)..4 * (i + j) + 4])
  {
    if i == 8 then []
    else
      var rest := StructWritesFrom(Wrap16(offset + 8), words, i + 1);
      StructStep(offset, words, i, rest);
      [WriteRequest(offset, WordsToBytes(words[4 * i..4 * i + 4]))] + rest
  }
  /** One step of the structured path: the first write at `offset`, then
      the writes from the next 4 words on at `offset + 8`, wrapped. */
  lemma StructStep(offset: u16, words: seq<u16>, i: nat, rest: seq<WriteRequest>)
    requires |words| == 32 && i < 8 && |rest| == 7 - i
    requires forall j :: 0 <= j < 7 - i ==>
               rest[j].address == Wrap16(Wrap16(offset + 8) + 8 * j)
               && rest[j].data == WordsToBytes(words[4 * (i + 1 + j)..4 * (i + 1 + j) + 4])
    ensures var w := [WriteRequest(offset, WordsToBytes(words[4 * i..4 * i + 4]))] + rest;
            forall j :: 0 <= j < 8 - i ==>
              w[j].address == Wrap16(offset + 8 * j) && w[j].data == WordsToBytes(words[4 * (i + j)..4 * (i + j) + 4])
  {
    var w := [WriteRequest(offset, WordsToBytes(words[4 * i..4 * i + 4]))] + rest;
    forall j | 1 <= j < 8 - i
      ensures w[j].address == Wrap16(offset + 8 * j) && w[j].data == WordsToBytes(words[4 * (i + j)..4 * (i + j) + 4])
    {
      assert w[j] == rest[j - 1];
      Wrap16Add(offset + 8, 8 * (j - 1));
    }
  }


  /** Both write modes issue the same eight calls with the same bytes. */
  lemma StructMatchesBytes(offset: u16, words: seq<u16>)
    requires |words| == 32
    ensures StructWritesFrom(offset, words, 0) == BytesWrites(offset, WordsToBytes(words))
  {
    StructMatchesBytesFrom(offset, words, 0);
  }

  lemma {:induction false} StructMatchesBytesFrom(offset: u16, words: seq<u16>, i: nat)
    requires |words| == 32 && i <= 8
    ensures StructWritesFrom(Wrap16(offset + 8 * i), words, i) == BytesWrites(offset, WordsToBytes(words))[i..]
    decreases 8 - i
  {
    if i < 8 {
      StructMatchesBytesFrom(offset, words, i + 1);
      var o: int := Wrap16(offset + 8 * i);
      Wrap16Add(offset + 8 * i, 8);
      assert Wrap16(o + 8) == Wrap16(offset + 8 * (i + 1));
      var rest := StructWritesFrom(Wrap16(o + 8), words, i + 1);
      assert StructWritesFrom(o, words, i) == [WriteRequest(o, WordsToBytes(words[4 * i..4 * i + 4]))] + rest;
      WordsSlice(words, i);
      var all := BytesWrites(offset, WordsToBytes(words));
      assert all[i] == WriteRequest(o, WordsToBytes(words[4 * i..4 * i + 4]));
      assert all[i..] == [all[i]] + all[i + 1..];
    }
  }

  /** The bytes of four consecutive words are the matching 8-byte slice. */
  lemma WordsSlice(words: seq<u16>, i: nat)
    requires |words| == 32 && i < 8
    ensures WordsToBytes(words[4 * i..4 * i + 4]) == WordsToBytes(words)[8 * i..8 * i + 8]
  {
    var part := WordsToBytes(words[4 * i..4 * i + 4]);
    var whole := WordsToBytes(words);
    forall t | 0 <= t < 8
      ensures part[t] == whole[8 * i + t]
    {
      var j := t / 2;
      WordOfSlice(words, i, j);
      assert t == 2 * j || t == 2 * j + 1;
    }
  }

  /** Word `j` of the slice starting at word `4 i`. */
  lemma WordOfSlice(words: seq<u16>, i: nat, j: nat)
    requires |words| == 32 && i < 8 && j < 4
    ensures var part := WordsToBytes(words[4 * i..4 * i + 4]);
            var whole := WordsToBytes(words);
            part[2 * j] == whole[8 * i + 2 * j] && part[2 * j + 1] == whole[8 * i + 2 * j + 1]
  {
    var k := 4 * i + j;
    assert words[4 * i..4 * i + 4][j] == words[k];
    assert 8 * i + 2 * j == 2 * k;
  }

  /** All the bytes a list of writes carries, in order. */
  function Carried(w: seq<WriteRequest>): seq<u8>
  {
    if |w| == 0 then [] else w[0].data + Carried(w[1..])
  }

  /** The eight writes of an accepted block carry exactly its payload, to
      consecutive 8-byte windows. */
  lemma BytesWritesCarryPayload(offset: u16, payload: seq<u8>)
    requires |payload| == PAYLOAD_BYTES
    ensures Carried(BytesWrites(offset, payload)) == payload
    ensures forall i :: 0 <= i < 8 ==> BytesWrites(offset, payload)[i].address == Wrap16(offset + 8 * i)
  {
    CarriedFrom(offset, payload, 0);
  }

  lemma {:induction false} CarriedFrom(offset: u16, payload: seq<u8>, i: nat)
    requires |payload| == PAYLOAD_BYTES && i <= 8
    ensures Carried(BytesWrites(offset, payload)[i..]) == payload[8 * i..]
    decreases 8 - i
  {
    var w := BytesWrites(offset, payload);
    if i < 8 {
      CarriedFrom(offset, payload, i + 1);
      assert w[i..][1..] == w[i + 1..];
      assert payload[8 * i..] == payload[8 * i..8 * i + 8] + payload[8 * (i + 1)..];
    }
  }

  // ---------------------------------------------------------------------
  // Receive path
  // ---------------------------------------------------------------------

  /** The offset lies in some segment of the map (the validation loop). */
  predicate InMap(m: TransferMap, off: int) {
    exists i :: 0 <= i < |m.segments| && InSegment(m.segments[i], off)
  }

  /** A packet the receiver stores: intact, with a matching CRC, and an
      offset inside the active map. */
  predicate Accepted(s: Session, status: u16, crc: Crc)
    requires IsPacket(s.buffer)
  {
    var f := Decode(status, s.buffer, crc);
    f.Valid? && InMap(ActiveMap(s), f.offset)
  }

  /** What one call of the receive path does. */
  datatype Stored = Stored(session: Session, writes: seq<WriteRequest>, radio: seq<RadioOp>)

  /** A failed check: one more error, nothing written. */
  function CountError(s: Session, radio: seq<RadioOp>): (r: Stored)
    ensures r.session.errors == Wrap16(s.errors + 1) && r.session.blocks == s.blocks
    ensures r.writes == [] && r.radio == radio
    ensures r.session.state == Complete <==> s.state == Complete || Done(r.session) >= CurrentMap(s.mapIndex).totalBlocks
    ensures r.session == s.(mapIndex := NormalizeIndex(s.mapIndex), errors := r.session.errors, state := r.session.state)
  {
    Stored(CheckComplete(s.(errors := Wrap16(s.errors + 1))), [], radio)
  }

  /** The receive path once the modem has delivered a full buffer, given the
      frame it decodes to and the de-scrambled words. */
  function StoreFrame(s: Session, f: Frame, words: seq<u16>): (r: Stored)
    requires SessionOk(s) && IsPacket(words)
    requires f.Valid? ==> f.payload == WordsToBytes(words[2..34])
    ensures SessionOk(r.session)
    ensures r.session == s.(mapIndex := NormalizeIndex(s.mapIndex), state := r.session.state,
                            blocks := r.session.blocks, errors := r.session.errors,
                            buffer := r.session.buffer)
    ensures |r.radio| > 0 && r.radio[0] == PrepareFskReceive
    ensures f.Valid? && InMap(ActiveMap(s), f.offset) ==>
              && r.session.blocks == Wrap16(s.blocks + 1) && r.session.errors == s.errors
              && r.writes == BytesWrites(f.offset, f.payload)
    ensures !(f.Valid? && InMap(ActiveMap(s), f.offset)) ==>
              && r.session.errors == Wrap16(s.errors + 1) && r.session.blocks == s.blocks
              && r.writes == []
    ensures r.session.state == Complete <==>
              s.state == Complete || Done(r.session) >= ActiveMap(s).totalBlocks
    ensures Done(r.session) < ActiveMap(s).totalBlocks ==> r.session.state == s.state
    ensures f == BadFrame ==> r.session.buffer == s.buffer && r.radio == [PrepareFskReceive, ResetFsk, PrepareFskReceive]
    ensures f != BadFrame ==> r.session.buffer == words && r.radio == [PrepareFskReceive]
  {
    match f
    case BadFrame =>
      CountError(s, [PrepareFskReceive, ResetFsk, PrepareFskReceive])
    case CrcMismatch =>
      CountError(s.(buffer := words), [PrepareFskReceive])
    case Valid(offset, payload) =>
      StoreBlock(s.(buffer := words), offset, payload)
  }

  /** The offset check and the write-out of an intact block. The de-scrambled
      buffer is already in place; the payload is its words 2..33 as bytes. */
  function StoreBlock(s: Session, offset: u16, payload: seq<u8>): (r: Stored)
    requires SessionOk(s) && payload == WordsToBytes(s.buffer[2..34])
    ensures SessionOk(r.session)
    ensures r.session == s.(mapIndex := NormalizeIndex(s.mapIndex), state := r.session.state,
                            blocks := r.session.blocks, errors := r.session.errors)
    ensures r.radio == [PrepareFskReceive]
    ensures InMap(ActiveMap(s), offset) ==>
              && r.session.blocks == Wrap16(s.blocks + 1) && r.session.errors == s.errors
              && r.writes == BytesWrites(offset, payload)
    ensures !InMap(ActiveMap(s), offset) ==>
              && r.session.errors == Wrap16(s.errors + 1) && r.session.blocks == s.blocks
              && r.writes == []
    ensures r.session.state == Complete <==>
              s.state == Complete || Done(r.session) >= ActiveMap(s).totalBlocks
    ensures Done(r.session) < ActiveMap(s).totalBlocks ==> r.session.state == s.state
  {
    var m := ActiveMap(s);
    if !InMap(m, offset) then
      CountError(s, [PrepareFskReceive])
    else
      match FindSegment(m, offset)
      case None =>
        CountError(s, [PrepareFskReceive])
      case Some(i) =>
        var data := s.buffer[2..34];
        StructMatchesBytes(offset, data);
        var writes := if m.segments[i].mode == WriteBytes then BytesWrites(offset, payload)
                      else StructWritesFrom(offset, data, 0);
        Stored(CheckComplete(s.(blocks := Wrap16(s.blocks + 1))), writes, [PrepareFskReceive])
  }

  /** `AIRCOPY_StorePacket`, called with the modem status register. Nothing
      happens until the modem has delivered all 36 words. Then the checks run
      in order: status and markers, CRC, offset in the map. Each failure
      counts one error and writes nothing; a packet that passes is written
      out in eight 8-byte writes and counts one block. Completion is
      re-checked either way. */
  function StorePacket(s: Session, status: u16, crc: Crc): (r: Stored)
    requires SessionOk(s)
    ensures SessionOk(r.session)
    ensures s.writeIndex < PACKET_WORDS ==> r == Stored(s, [], [])
    ensures s.writeIndex >= PACKET_WORDS ==>
              && r.session == s.(writeIndex := 0, mapIndex := NormalizeIndex(s.mapIndex),
                                 state := r.session.state, blocks := r.session.blocks,
                                 errors := r.session.errors, buffer := r.session.buffer)
              && |r.radio| > 0 && r.radio[0] == PrepareFskReceive
    ensures s.writeIndex >= PACKET_WORDS && Accepted(s, status, crc) ==>
              var f := Decode(status, s.buffer, crc);
              && r.session.blocks == Wrap16(s.blocks + 1) && r.session.errors == s.errors
              && r.writes == BytesWrites(f.offset, f.payload)
    ensures s.writeIndex >= PACKET_WORDS && !Accepted(s, status, crc) ==>
              && r.session.errors == Wrap16(s.errors + 1) && r.session.blocks == s.blocks
              && r.writes == []
    ensures s.writeIndex >= PACKET_WORDS ==>
              && (r.session.state == Complete <==>
                    s.state == Complete || Done(r.session) >= ActiveMap(s).totalBlocks)
              && (Done(r.session) < ActiveMap(s).totalBlocks ==> r.session.state == s.state)
    ensures s.writeIndex >= PACKET_WORDS && Decode(status, s.buffer, crc) == BadFrame ==>
              r.session.buffer == s.buffer && r.radio == [PrepareFskReceive, ResetFsk, PrepareFskReceive]
    ensures s.writeIndex >= PACKET_WORDS && Decode(status, s.buffer, crc) != BadFrame ==>
              r.session.buffer == Scramble(s.buffer) && r.radio == [PrepareFskReceive]
  {
    if s.writeIndex < PACKET_WORDS then Stored(s, [], [])
    else
      var s0 := s.(writeIndex := 0);
      assert ActiveMap(s0) == ActiveMap(s);
      StoreFrame(s0, Decode(status, s.buffer, crc), Scramble(s.buffer))
  }

  /** The second lookup of the receive path (`AIRCOPY_FindSegmentForOffset`)
      cannot fail once the validation loop has found a segment. */
  lemma SegmentFoundAfterValidation(m: TransferMap, off: int)
    requires InMap(m, off)
    ensures FindSegment(m, off).Some?
  {
  }

  /** The modem delivers a complete buffer and the receive path runs. */
  function Receive(s: Session, status: u16, words: seq<u16>, crc: Crc): (r: Stored)
    requires SessionOk(s) && IsPacket(words)
    ensures SessionOk(r.session) && r.session.writeIndex == 0
    ensures Decode(status, words, crc) != BadFrame ==> r.session.buffer == Scramble(words)
    ensures Decode(status, words, crc) == BadFrame ==> r.session.buffer == words
    ensures ActiveMap(r.session) == ActiveMap(s)
    ensures var f := Decode(status, words, crc);
            f.Valid? && InMap(ActiveMap(s), f.offset) ==>
              && r.session.blocks == Wrap16(s.blocks + 1) && r.session.errors == s.errors
              && r.writes == BytesWrites(f.offset, f.payload)
    ensures var f := Decode(status, words, crc);
            !(f.Valid? && InMap(ActiveMap(s), f.offset)) ==>
              && r.session.errors == Wrap16(s.errors + 1) && r.session.blocks == s.blocks
              && r.writes == []
    ensures r.session.state == Complete <==> s.state == Complete || Done(r.session) >= ActiveMap(s).totalBlocks
    ensures Done(r.session) < ActiveMap(s).totalBlocks ==> r.session.state == s.state
  {
    var full := s.(buffer := words, writeIndex := PACKET_WORDS);
    FullBuffer(s, full, status, words, crc);
    StorePacket(full, status, crc)
  }

  /** The session the modem leaves behind once the 36 words are in: only
      the buffer and its fill level differ, so the map, the counters and the
      acceptance test are those of the words received. */
  lemma FullBuffer(s: Session, full: Session, status: u16, words: seq<u16>, crc: Crc)
    requires SessionOk(s) && IsPacket(words)
    requires full == s.(buffer := words, writeIndex := PACKET_WORDS)
    ensures SessionOk(full) && full.writeIndex >= PACKET_WORDS && full.buffer == words
    ensures ActiveMap(full) == ActiveMap(s) && Done(full) == Done(s) && full.state == s.state
    ensures full.blocks == s.blocks && full.errors == s.errors
    ensures var f := Decode(status, words, crc);
            Accepted(full, status, crc) <==> f.Valid? && InMap(ActiveMap(s), f.offset)
  {
    assert ActiveMap(full) == ActiveMap(s);
  }

  /** One reception: the modem status and the 36 words received. */
  datatype Reception = Reception(status: u16, words: seq<u16>)

  predicate ReceptionsOk(rx: seq<Reception>) {
    forall i :: 0 <= i < |rx| ==> IsPacket(rx[i].words)
  }

  /** The session after a run of receptions, in order. */
  function ReceiveAll(s: Session, rx: seq<Reception>, crc: Crc): (r: Session)
    requires SessionOk(s) && ReceptionsOk(rx)
    ensures SessionOk(r)
    decreases |rx|
  {
    if |rx| == 0 then s
    else
      var before := ReceiveAll(s, rx[..|rx| - 1], crc);
      Receive(before, rx[|rx| - 1].status, rx[|rx| - 1].words, crc).session
  }

  /** Every reception counts exactly once, as a block or as an error, and
      the session is complete exactly when blocks plus errors have reached
      the active map's total (as long as the counters do not wrap). */
  lemma {:induction false} ReceiveRun(s: Session, rx: seq<Reception>, crc: Crc)
    requires SessionOk(s) && ReceptionsOk(rx)
    requires s.blocks + s.errors + |rx| < 0x1_0000
    ensures var r := ReceiveAll(s, rx, crc);
            && r.blocks + r.errors == s.blocks + s.errors + |rx|
            && ActiveMap(r) == ActiveMap(s)
            && (r.state == Complete <==>
                  s.state == Complete || (|rx| > 0 && s.blocks + s.errors + |rx| >= ActiveMap(s).totalBlocks))
            && (r.state != Complete ==> r.state == s.state)
    decreases |rx|
  {
    if |rx| > 0 {
      var init := rx[..|rx| - 1];
      assert ReceptionsOk(init);
      ReceiveRun(s, init, crc);
      var before := ReceiveAll(s, init, crc);
      var last := rx[|rx| - 1];
      ReceiveStep(before, last.status, last.words, crc);
      if |init| > 0 && before.state == Complete {
        assert s.state == Complete || s.blocks + s.errors + |init| >= ActiveMap(s).totalBlocks;
      }
    }
  }

  /** One reception counts one block or one error (each a 16-bit counter),
      so the 16-bit sum the firmware tests moves on by one; it keeps the
      active map, and completes the session exactly when that sum reaches
      the total. */
  lemma ReceiveStep(s: Session, status: u16, words: seq<u16>, crc: Crc)
    requires SessionOk(s) && IsPacket(words)
    ensures var r := Receive(s, status, words, crc).session;
            && ((r.blocks == Wrap16(s.blocks + 1) && r.errors == s.errors) ||
                (r.blocks == s.blocks && r.errors == Wrap16(s.errors + 1)))
            && Done(r) == Wrap16(Done(s) + 1)
            && (s.blocks + s.errors + 1 < 0x1_0000 ==> r.blocks + r.errors == s.blocks + s.errors + 1)
            && ActiveMap(r) == ActiveMap(s)
            && (r.state == Complete <==> s.state == Complete || Done(r) >= ActiveMap(s).totalBlocks)
            && (r.state != Complete ==> r.state == s.state)
  {
    var r := Receive(s, status, words, crc).session;
    CountStep(s, r);
  }

  /** Counting one block or one error in 16-bit counters moves their 16-bit
      sum on by one. */
  lemma CountStep(s: Session, r: Session)
    requires (r.blocks == Wrap16(s.blocks + 1) && r.errors == s.errors) ||
             (r.blocks == s.blocks && r.errors == Wrap16(s.errors + 1))
    ensures Done(r) == Wrap16(Done(s) + 1)
    ensures s.blocks + s.errors + 1 < 0x1_0000 ==> r.blocks + r.errors == s.blocks + s.errors + 1
  {
    Wrap16Add(s.blocks + s.errors, 1);
    if r.errors == s.errors && r.blocks == Wrap16(s.blocks + 1) {
      Wrap16Add(s.blocks + 1, s.errors);
    } else {
      Wrap16Add(s.errors + 1, s.blocks);
    }
  }

  // ---------------------------------------------------------------------
  // Send path
  // ---------------------------------------------------------------------

  /** The send path's own static variables: the tick countdown to the next
      block, and the cursor (offset and segment index) into the map. */
  datatype Sender = Sender(countdown: u8, offset: u16, segment: u16)

  const SENDER_AT_BOOT: Sender := Sender(1, 0, 0)

  /** Ticks between two blocks. */
  const SEND_INTERVAL: u8 := 30

  /** Blocks still to send from the cursor: the rest of the current segment
      and all later segments in full. */
  function Remaining(m: TransferMap, seg: nat, off: int): nat
  {
    if seg >= |m.segments| then 0 else BlocksFrom(m.segments[seg], off) + FullFrom(m, seg + 1)
  }

  /** The send-side invariant between two calls of a running send session:
      blocks sent plus blocks remaining is the map's total, and the cursor
      is not before the start of its segment. */
  predicate Accounted(s: Session, snd: Sender) {
    var m := ActiveMap(s);
    && s.blocks + Remaining(m, snd.segment, snd.offset) == m.totalBlocks
    && (snd.segment < |m.segments| ==> m.segments[snd.segment].start <= snd.offset)
  }

  /** A block on the air: its offset and the 64 bytes read from there. */
  datatype Block = Block(offset: u16, payload: seq<u8>)

  /** Skipping exhausted segments leaves the count of remaining blocks alone. */
  lemma SkipSegment(m: TransferMap, seg: nat, off: int)
    requires seg < |m.segments| && off >= m.segments[seg].end
    ensures Remaining(m, seg, off) == Remaining(m, seg + 1, if seg + 1 < |m.segments| then m.segments[seg + 1].start else off)
  {
  }

  /** Sending one block from inside a segment leaves one block fewer. */
  lemma SendOne(m: TransferMap, seg: nat, off: int)
    requires seg < |m.segments| && m.segments[seg].start <= off < m.segments[seg].end
    ensures Remaining(m, seg, off + BLOCK_SIZE) + 1 == Remaining(m, seg, off)
  {
    var n := m.segments[seg].end - off;
    assert CeilDiv(n, BLOCK_SIZE) == (n + 63) / 64;
    if n > 64 {
      assert CeilDiv(n - 64, BLOCK_SIZE) == (n - 1) / 64;
    }
  }

  /** The skip loop of the send path: move past segments whose end the
      cursor has reached, to the start of the next one. The number of blocks
      remaining does not change, and the cursor ends before the end of a
      segment or past the last one. A cursor that started inside its
      segment ends inside one. */
  method SkipFinished(m: TransferMap, seg0: nat, off0: u16) returns (seg: nat, off: u16)
    ensures Remaining(m, seg, off) == Remaining(m, seg0, off0)
    ensures seg < |m.segments| ==> off < m.segments[seg].end
    ensures seg < |m.segments| ==> if seg == seg0 then off == off0 else off == m.segments[seg].start
    ensures seg >= |m.segments| ==> Remaining(m, seg, off) == 0
    ensures seg == seg0 || seg <= |m.segments|
    ensures seg0 < |m.segments| && off0 < m.segments[seg0].end ==> seg == seg0
    ensures (seg0 < |m.segments| ==> m.segments[seg0].start <= off0) ==>
              (seg < |m.segments| ==> InSegment(m.segments[seg], off))
  {
    seg, off := seg0, off0;
    while seg < |m.segments| && off >= m.segments[seg].end
      invariant Remaining(m, seg, off) == Remaining(m, seg0, off0)
      invariant seg == seg0 ==> off == off0
      invariant seg != seg0 && seg < |m.segments| ==> off == m.segments[seg].start
      invariant seg == seg0 || seg <= |m.segments|
      invariant seg0 < |m.segments| && off0 < m.segments[seg0].end ==> seg == seg0
      decreases |m.segments| - seg
    {
      SkipSegment(m, seg, off);
      seg := seg + 1;
      if seg < |m.segments| {
        off := m.segments[seg].start;
      }
    }
  }

  /** Where a send tick starts walking: the first segment for a session with
      no block counted yet, the sender's cursor otherwise. */
  function StartSegment(s: Session, snd: Sender): u16 {
    if s.blocks == 0 then 0 else snd.segment
  }

  function StartOffset(s: Session, snd: Sender): u16 {
    if s.blocks == 0 then ActiveMap(s).segments[0].start else snd.offset
  }

  /** The sender's cursor belongs to the active map: either the session has
      not counted a block yet, or the blocks sent and the blocks remaining
      from the cursor add up to the map's total. Moving the map cursor in the
      middle of a send session breaks this (see `StaleCursorAfterUp`). */
  predicate CursorValid(s: Session, snd: Sender) {
    s.blocks == 0 || Accounted(s, snd)
  }

  /** `AIRCOPY_SendMessage`, called once per tick. Outside a transfer, and
      on every tick but the one the countdown reaches zero on, it does
      nothing (it reports `idle`). On that tick it skips finished segments;
      if none is left the session is complete, otherwise it reads 64 bytes at
      the cursor, builds and transmits the packet, switches the amplifier
      off, moves the cursor 64 bytes on, counts the block and restarts the
      countdown. A session with no block counted yet starts from the first
      segment. With a valid cursor every block sent lies in the map, the
      session completes after exactly the map's total, and the cursor stays
      valid. */
  method SendMessage(s: Session, snd: Sender, f: Flash, crc: Crc)
    returns (s': Session, snd': Sender, idle: bool, block: Option<Block>, radio: seq<RadioOp>)
    requires SessionOk(s)
    ensures SessionOk(s')
    ensures idle <==> s.state != Transfer || Wrap8(snd.countdown - 1) != 0
    ensures s.state != Transfer ==> s' == s && snd' == snd && block.None? && radio == []
    ensures s.state == Transfer && Wrap8(snd.countdown - 1) != 0 ==>
              s' == s && snd' == snd.(countdown := Wrap8(snd.countdown - 1)) && block.None? && radio == []
    ensures !idle ==> SentTick(s, f, crc, s', snd', block, radio)
    ensures !idle ==> (block.None? <==> Remaining(ActiveMap(s), StartSegment(s, snd), StartOffset(s, snd)) == 0)
    ensures block.Some? && StartSegment(s, snd) < |ActiveMap(s).segments| &&
            StartOffset(s, snd) < ActiveMap(s).segments[StartSegment(s, snd)].end ==>
              block.value.offset == StartOffset(s, snd)
    ensures CursorValid(s, snd) && block.Some? ==> InMap(ActiveMap(s), block.value.offset)
    ensures CursorValid(s, snd) && !idle && block.None? ==> s'.blocks == ActiveMap(s).totalBlocks
    ensures CursorValid(s, snd) && !idle && s'.state == Transfer ==> Accounted(s', snd')
  {
    if s.state != Transfer {
      return s, snd, true, None, [];
    }
    var countdown := Wrap8(snd.countdown - 1);
    if countdown != 0 {
      return s, snd.(countdown := countdown), true, None, [];
    }
    var seg := StartSegment(s, snd);
    var off := StartOffset(s, snd);
    assert CursorValid(s, snd) ==> StartValid(s, seg, off);
    s', snd', block, radio := SendDue(s, seg, off, f, crc);
    idle := false;
  }

  /** The cursor a due tick starts from accounts for the map: the blocks
      counted and the blocks remaining add up to the total, and the cursor is
      not before the start of its segment. */
  predicate StartValid(s: Session, seg: nat, off: int) {
    && s.blocks + Remaining(ActiveMap(s), seg, off) == ActiveMap(s).totalBlocks
    && (seg < |ActiveMap(s).segments| ==> ActiveMap(s).segments[seg].start <= off)
  }

  /** What a due tick does: complete the session, or transmit one block
      read from the flash and restart the countdown. */
  predicate SentTick(s: Session, f: Flash, crc: Crc,
                     s': Session, snd': Sender, block: Option<Block>, radio: seq<RadioOp>)
    requires SessionOk(s)
  {
    && (block.None? ==> s' == s.(mapIndex := NormalizeIndex(s.mapIndex), state := Complete) && radio == [])
    && (block.Some? ==>
          var b := block.value;
          && |b.payload| == PAYLOAD_BYTES
          && (forall k :: 0 <= k < PAYLOAD_BYTES ==> b.payload[k] == ReadExpect(ADDR_MAPPINGS, f, b.offset, 64, k))
          && s' == s.(mapIndex := NormalizeIndex(s.mapIndex), blocks := Wrap16(s.blocks + 1),
                      buffer := BuildPacket(s.buffer, b.offset, b.payload, crc))
          && snd'.countdown == SEND_INTERVAL && snd'.offset == b.offset + BLOCK_SIZE
          && radio == [SetTxParameters, SendFsk(s'.buffer), AmplifierOff])
  }

  /** The tick on which the countdown reaches zero, from the start cursor
      (`seg0`, `off0`). */
  method SendDue(s: Session, seg0: u16, off0: u16, f: Flash, crc: Crc)
    returns (s': Session, snd': Sender, block: Option<Block>, radio: seq<RadioOp>)
    requires SessionOk(s) && s.state == Transfer
    ensures SessionOk(s')
    ensures SentTick(s, f, crc, s', snd', block, radio)
    ensures block.None? <==> Remaining(ActiveMap(s), seg0, off0) == 0
    ensures block.Some? && seg0 < |ActiveMap(s).segments| && off0 < ActiveMap(s).segments[seg0].end ==>
              block.value.offset == off0
    ensures StartValid(s, seg0, off0) && block.Some? ==> InMap(ActiveMap(s), block.value.offset)
    ensures StartValid(s, seg0, off0) && block.None? ==> s'.blocks == ActiveMap(s).totalBlocks
    ensures StartValid(s, seg0, off0) && s'.state == Transfer ==> Accounted(s', snd')
  {
    var m := ActiveMap(s);
    var seg, off := SkipFinished(m, seg0, off0);
    if seg >= |m.segments| {
      s' := s.(mapIndex := NormalizeIndex(s.mapIndex), state := Complete);
      assert ActiveMap(s') == m;
      assert Remaining(m, seg0, off0) == 0;
      snd' := Sender(0, off, seg);
      return s', snd', None, [];
    }
    BlocksLeft(m, seg, off);
    s', snd', block, radio := SendAt(s, seg, off, f, crc);
  }

  /** A cursor before the end of a segment has at least one block left. */
  lemma BlocksLeft(m: TransferMap, seg: nat, off: int)
    requires seg < |m.segments| && off < m.segments[seg].end
    ensures Remaining(m, seg, off) > 0
  {
  }

  /** The transmitting half of a send tick, at a cursor before the end of a
      segment: read 64 bytes there, build and transmit the packet, switch
      the amplifier off, move the cursor on (the 16-bit offset cannot wrap,
      as every segment ends 64 bytes short of 0x10000), count the block,
      restart the countdown. */
  method SendAt(s: Session, seg: nat, off: u16, f: Flash, crc: Crc)
    returns (s': Session, snd': Sender, block: Option<Block>, radio: seq<RadioOp>)
    requires SessionOk(s) && s.state == Transfer
    requires seg < |ActiveMap(s).segments| && off < ActiveMap(s).segments[seg].end
    ensures SessionOk(s') && block.Some? && block.value.offset == off
    ensures SentTick(s, f, crc, s', snd', block, radio) && snd'.segment == seg
    ensures InSegment(ActiveMap(s).segments[seg], off) ==> InMap(ActiveMap(s), off)
    ensures InSegment(ActiveMap(s).segments[seg], off)
            && s.blocks + Remaining(ActiveMap(s), seg, off) == ActiveMap(s).totalBlocks ==>
              Accounted(s', snd')
  {
    var m := ActiveMap(s);
    assert SegmentOk(m.segments[seg]);
    var payload := ReadBuffer(f, off, 64);
    var packet := BuildPacket(s.buffer, off, payload, crc);
    s' := s.(mapIndex := NormalizeIndex(s.mapIndex), blocks := Wrap16(s.blocks + 1), buffer := packet);
    assert ActiveMap(s') == m;
    snd' := Sender(SEND_INTERVAL, off + BLOCK_SIZE, seg);
    block := Some(Block(off, payload));
    radio := [SetTxParameters, SendFsk(packet), AmplifierOff];
    if InSegment(m.segments[seg], off) && s.blocks + Remaining(m, seg, off) == m.totalBlocks {
      SendOne(m, seg, off);
    }
  }

  /** Pressing UP during a bank-0 send session, one block in, moves the map
      cursor to bank 1 but not the send cursor: the cursor that was valid for
      bank 0 is not valid for bank 1, and the next block goes out from offset
      0x0040, which bank 1's map does not contain. */
  method StaleCursorAfterUp(s: Session, f: Flash, crc: Crc) returns (moved: Session, block: Option<Block>)
    requires SessionOk(s) && s.state == Transfer && s.mapIndex == 0 && s.blocks == 1
    ensures Accounted(s, Sender(1, 0x40, 0))
    ensures moved == s.(mapIndex := 1) && !Accounted(moved, Sender(1, 0x40, 0))
    ensures block.Some? && block.value.offset == 0x40 && !InMap(ActiveMap(moved), 0x40)
  {
    var snd := Sender(1, 0x40, 0);
    assert ActiveMap(s) == BankMap(0);
    assert Remaining(BankMap(0), 0, 0x40) == 67 by {
      assert FullFrom(BankMap(0), 1) == 36 by { BankMapOk(0); }
    }
    moved := ProcessKey(s, KeyUp, true, false, false).session;
    assert ActiveMap(moved) == BankMap(1);
    assert Remaining(BankMap(1), 0, 0x40) == 99 by {
      assert FullFrom(BankMap(1), 1) == 36 by { BankMapOk(1); }
    }
    assert StartSegment(moved, snd) == 0 && StartOffset(moved, snd) == 0x40;
    assert 0x40 < ActiveMap(moved).segments[0].end;
    assert !InMap(BankMap(1), 0x40) by {
      var segs := BankMap(1).segments;
      assert segs[0].start == 0x800 && segs[1].start == 0x4800 && segs[2].start == 0x8100;
    }
    var s', snd', idle, radio;
    s', snd', idle, block, radio := SendMessage(moved, snd, f, crc);
  }

  /** A block the sender puts on the air is stored, as eight writes of its
      payload at its offset, by any receiver on the same map that gets the
      packet intact. */
  lemma SentBlockIsStored(rx: Session, packet: seq<u16>, b: Block, crc: Crc)
    requires SessionOk(rx) && IsPacket(packet)
    requires Decode(0, packet, crc) == Valid(b.offset, b.payload)
    requires InMap(ActiveMap(rx), b.offset)
    ensures var r := Receive(rx, 0, packet, crc);
            && r.writes == BytesWrites(b.offset, b.payload)
            && r.session.blocks == Wrap16(rx.blocks + 1)
            && Carried(r.writes) == b.payload
  {
    var full := rx.(buffer := packet, writeIndex := PACKET_WORDS);
    assert ActiveMap(full) == ActiveMap(rx);
    assert Accepted(full, 0, crc);
    BytesWritesCarryPayload(b.offset, b.payload);
  }

  // ---------------------------------------------------------------------
  // Keys
  // ---------------------------------------------------------------------

  datatype Key = KeyMenu | KeyExit | KeyUp | KeyDown | KeyOther

  datatype KeyResult = KeyResult(session: Session, radio: seq<RadioOp>)

  /** The cleared error bitmap (`memset` to zero). */
  function ClearedBits(): (r: seq<bv8>)
    ensures |r| == ERROR_BITMAP_BYTES && NoErrors(r)
  {
    seq(ERROR_BITMAP_BYTES, _ => 0)
  }

  /** EXIT: with an empty frequency box, (re)start a receive session from
      scratch; otherwise delete the last typed digit. */
  function ExitPressed(s: Session): (r: KeyResult)
    requires SessionOk(s)
    ensures SessionOk(r.session)
    ensures s.inputIndex == 0 ==>
              && r.session.state == Transfer && r.session.sendMode == 0
              && r.session.blocks == 0 && r.session.errors == 0 && r.session.shownErrors == 0
              && r.session.writeIndex == 0 && NoErrors(r.session.errorBits)
              && r.session.mapIndex == s.mapIndex
              && r.radio == [PrepareFskReceive]
    ensures s.inputIndex > 0 ==> r == KeyResult(s.(inputIndex := s.inputIndex - 1), [])
  {
    if s.inputIndex == 0 then
      KeyResult(s.(step := 1, writeIndex := 0, blocks := 0, inputIndex := 0,
                   errors := 0, shownErrors := 0, sendMode := 0,
                   errorBits := ClearedBits(), state := Transfer),
                [PrepareFskReceive])
    else
      KeyResult(s.(inputIndex := s.inputIndex - 1), [])
  }

  /** MENU: start a send session. The packet buffer gets its two markers and
      a zero offset, the screen is redrawn, and the state becomes Transfer.
      The error counter is not reset. */
  function MenuPressed(s: Session): (r: KeyResult)
    requires SessionOk(s)
    ensures SessionOk(r.session)
    ensures r.session.state == Transfer && r.session.sendMode == 1
    ensures r.session.blocks == 0 && r.session.errors == s.errors && r.session.writeIndex == 0
    ensures r.session.buffer[0] == START_MARKER && r.session.buffer[1] == 0
    ensures r.session.buffer[35] == END_MARKER
    ensures r.session.mapIndex == NormalizeIndex(s.mapIndex)
    ensures r.radio == []
  {
    var prepared := s.(step := 1, writeIndex := 0, blocks := 0, inputIndex := 0, sendMode := 1,
                       buffer := s.buffer[0 := START_MARKER][1 := 0][35 := END_MARKER],
                       errorBits := ClearedBits());
    var shown := Render(prepared).session;
    KeyResult(shown.(state := Transfer), [])
  }

  /** `AIRCOPY_ProcessKeys` for the keys modelled here. A key only acts when
      pressed and not held. `leftRight` is the build option that swaps the
      directions of UP and DOWN. */
  function ProcessKey(s: Session, key: Key, pressed: bool, held: bool, leftRight: bool): (r: KeyResult)
    requires SessionOk(s)
    ensures SessionOk(r.session)
    ensures held || !pressed || key == KeyOther ==> r == KeyResult(s, [])
    ensures pressed && !held && (key == KeyUp || key == KeyDown) ==>
              r.session == s.(mapIndex := r.session.mapIndex) && r.session.mapIndex < NUM_MAPS
  {
    if held || !pressed then KeyResult(s, [])
    else match key
      case KeyMenu => MenuPressed(s)
      case KeyExit => ExitPressed(s)
      case KeyUp => KeyResult(s.(mapIndex := Navigate(s.mapIndex, if leftRight then -1 else 1)), [])
      case KeyDown => KeyResult(s.(mapIndex := Navigate(s.mapIndex, if leftRight then 1 else -1)), [])
      case KeyOther => KeyResult(s, [])
  }

  /** UP then DOWN (or DOWN then UP) returns the cursor to where it was, in
      either build option. */
  lemma UpDownInverse(s: Session, leftRight: bool)
    requires SessionOk(s) && s.mapIndex < NUM_MAPS
    ensures ProcessKey(ProcessKey(s, KeyUp, true, false, leftRight).session, KeyDown, true, false, leftRight).session == s
    ensures ProcessKey(ProcessKey(s, KeyDown, true, false, leftRight).session, KeyUp, true, false, leftRight).session == s
  {
    NavigateInverse(s.mapIndex);
  }

  /** From a freshly started receive session (as EXIT leaves it), `n`
      receptions complete the session exactly when `n` reaches the active
      map's block total. */
  lemma FreshReceiveRun(s: Session, rx: seq<Reception>, crc: Crc)
    requires SessionOk(s) && s.state == Transfer && s.blocks == 0 && s.errors == 0
    requires ReceptionsOk(rx)
    ensures ReceiveAll(s, rx, crc).state == Complete <==> |rx| >= ActiveMap(s).totalBlocks
  {
    var total := ActiveMap(s).totalBlocks;
    if |rx| < 0x1_0000 {
      ReceiveRun(s, rx, crc);
    } else {
      assert ReceptionsOk(rx[..total]);
      ReceiveRun(s, rx[..total], crc);
      CompleteStays(s, rx, total, crc);
    }
  }

  /** No reception takes a session out of Complete. */
  lemma {:induction false} CompleteStays(s: Session, rx: seq<Reception>, k: nat, crc: Crc)
    requires SessionOk(s) && ReceptionsOk(rx) && k <= |rx|
    requires ReceptionsOk(rx[..k]) && ReceiveAll(s, rx[..k], crc).state == Complete
    ensures ReceiveAll(s, rx, crc).state == Complete
    decreases |rx|
  {
    if |rx| > k {
      var init := rx[..|rx| - 1];
      assert ReceptionsOk(init) && init[..k] == rx[..k];
      CompleteStays(s, init, k, crc);
      ReceiveStep(ReceiveAll(s, init, crc), rx[|rx| - 1].status, rx[|rx| - 1].words, crc);
    } else {
      assert rx[..k] == rx;
    }
  }
}

=== FILE: aircopy_maps.dfy ===
/**
 * The AirCopy transfer-map catalog: which logical EEPROM ranges a transfer
 * covers, how the receiver must write each range, and how many 64-byte blocks
 * a complete transfer takes. Also the cursor that selects the active map.
 */
module AircopyMaps {
  import opened Common

  /** One AirCopy block carries 64 bytes of EEPROM. */
  const BLOCK_SIZE: nat := 64

  /** How the receiver writes a segment: as 16-bit words or as raw bytes. */
  datatype WriteMode = WriteStruct | WriteBytes

  /** A half-open logical EEPROM range `[start, end)`. */
  datatype Segment = Segment(start: u16, end: u16, mode: WriteMode)

  /** A complete transfer: its segments, in order, and the declared block count. */
  datatype TransferMap = TransferMap(segments: seq<Segment>, totalBlocks: u16)

  predicate InSegment(s: Segment, off: int) {
    s.start <= off < s.end
  }

  /** The three segments of channel bank `bank`: 128 frequency records of
      16 bytes, 128 name records of 16 bytes and 128 attribute pairs. */
  function BankSegments(bank: nat): (segs: seq<Segment>)
    requires bank < 8
    ensures |segs| == 3
    ensures segs[0].end - segs[0].start == 0x800 && segs[1].end - segs[1].start == 0x800
    ensures segs[2].end - segs[2].start == 0x100
    ensures segs[0].mode == WriteStruct && segs[1].mode == WriteStruct && segs[2].mode == WriteBytes
  {
    [ Segment(0x0000 + bank * 0x0800, 0x0000 + bank * 0x0800 + 0x0800, WriteStruct),
      Segment(0x4000 + bank * 0x0800, 0x4000 + bank * 0x0800 + 0x0800, WriteStruct),
      Segment(0x8000 + bank * 0x0100, 0x8000 + bank * 0x0100 + 0x0100, WriteBytes) ]
  }

  function BankMap(bank: nat): TransferMap
    requires bank < 8
  {
    TransferMap(BankSegments(bank), 68)
  }

  const SETTINGS_MAP: TransferMap := TransferMap([Segment(0xA000, 0xA160, WriteBytes)], 6)

  /** The build configurations: 256, 512, 768 or 1024 memory channels. */
  predicate ValidBankCount(numBanks: nat) {
    numBanks == 2 || numBanks == 4 || numBanks == 6 || numBanks == 8
  }

  /** The catalog: one map per bank, then the settings map. */
  function Catalog(numBanks: nat): (maps: seq<TransferMap>)
    requires ValidBankCount(numBanks)
    ensures |maps| == numBanks + 1
    ensures maps[numBanks] == SETTINGS_MAP
    ensures forall b :: 0 <= b < numBanks ==> maps[b] == BankMap(b)
  {
    seq(numBanks, b requires 0 <= b < numBanks => BankMap(b)) + [SETTINGS_MAP]
  }

  /** The configuration this model fixes: 1024 channels, eight banks. */
  const NUM_BANKS: nat := 8
  const MAPS: seq<TransferMap> := Catalog(NUM_BANKS)
  const NUM_MAPS: nat := NUM_BANKS + 1

  // ---------------------------------------------------------------------
  // Cursor
  // ---------------------------------------------------------------------

  /** The index `AIRCOPY_GetCurrentMap` leaves behind: an out-of-range
      cursor is reset to the first map. */
  function NormalizeIndex(index: nat): (i: nat)
    ensures i < NUM_MAPS
    ensures index < NUM_MAPS <==> i == index
    ensures index >= NUM_MAPS <==> i == 0 && index != 0
  {
    if index >= NUM_MAPS then 0 else index
  }

  /** `AIRCOPY_GetCurrentMap`: the catalog entry under the cursor, or the
      first one once an out-of-range cursor has been reset. */
  function CurrentMap(index: nat): (m: TransferMap)
    ensures m in MAPS
    ensures index < NUM_MAPS ==> m == MAPS[index]
    ensures index >= NUM_MAPS ==> m == MAPS[0]
  {
    MAPS[NormalizeIndex(index)]
  }

  /** One press of UP or DOWN: direction 1 or -1 moves the cursor one map
      forward or back, cyclically; any other direction leaves it alone. */
  function Navigate(index: nat, direction: int): (r: nat)
    ensures direction == 1 || direction == -1 ==> r < NUM_MAPS
    ensures direction != 1 && direction != -1 ==> r == index
  {
    if direction == 1 then (index + 1) % NUM_MAPS
    else if direction == -1 then (index + NUM_MAPS - 1) % NUM_MAPS
    else index
  }

  /** A forward step and a backward step undo each other. */
  lemma {:induction false} NavigateInverse(index: nat)
    requires index < NUM_MAPS
    ensures Navigate(Navigate(index, 1), -1) == index
    ensures Navigate(Navigate(index, -1), 1) == index
  {
    if index + 1 < NUM_MAPS {
      assert Navigate(index, 1) == index + 1;
    } else {
      assert Navigate(index, 1) == 0;
    }
    if index > 0 {
      assert Navigate(index, -1) == index - 1;
    } else {
      assert Navigate(index, -1) == NUM_MAPS - 1;
    }
  }

  /** `k` presses in the same direction. */
  function NavigateTimes(index: nat, direction: int, k: nat): nat
  {
    if k == 0 then index else Navigate(NavigateTimes(index, direction, k - 1), direction)
  }

  /** `k` forward presses from a valid cursor land `k` maps further on,
      modulo the catalog size. */
  lemma {:induction false} NavigateForwardTimes(index: nat, k: nat)
    requires index < NUM_MAPS
    ensures NavigateTimes(index, 1, k) == (index + k) % NUM_MAPS
  {
    if k > 0 {
      NavigateForwardTimes(index, k - 1);
      ModSucc(index + k - 1);
    }
  }

  /** Taking the remainder before or after adding one agrees. */
  lemma ModSucc(x: nat)
    ensures (x % NUM_MAPS + 1) % NUM_MAPS == (x + 1) % NUM_MAPS
  {
    var q, r := x / NUM_MAPS, x % NUM_MAPS;
    assert x == NUM_MAPS * q + r;
    if r + 1 == NUM_MAPS {
      assert x + 1 == NUM_MAPS * (q + 1);
    } else {
      assert x + 1 == NUM_MAPS * q + (r + 1);
    }
  }

  /** Pressing the same key once per map, or any whole number of rounds,
      brings the cursor back. */
  lemma {:induction false} NavigateFullCircle(index: nat, k: nat)
    requires index < NUM_MAPS && k % NUM_MAPS == 0
    ensures NavigateTimes(index, 1, k) == index
  {
    NavigateForwardTimes(index, k);
    var q := k / NUM_MAPS;
    assert k == NUM_MAPS * q;
    ModRounds(index, q);
  }

  /** Whole rounds of the catalog do not change a remainder. */
  lemma {:induction false} ModRounds(index: nat, q: nat)
    requires index < NUM_MAPS
    ensures (index + NUM_MAPS * q) % NUM_MAPS == index
    decreases q
  {
    if q > 0 {
      ModRounds(index, q - 1);
      var y := index + NUM_MAPS * (q - 1);
      assert index + NUM_MAPS * q == y + NUM_MAPS;
    }
  }

  // ---------------------------------------------------------------------
  // Segment lookup
  // ---------------------------------------------------------------------

  /** The first segment of `m` at or after `i` that contains `off`. */
  function FindSegmentFrom(m: TransferMap, off: int, i: nat): (r: Option<nat>)
    requires i <= |m.segments|
    decreases |m.segments| - i
    ensures r.Some? ==> i <= r.value < |m.segments| && InSegment(m.segments[r.value], off)
    ensures r.Some? ==> forall j :: i <= j < r.value ==> !InSegment(m.segments[j], off)
    ensures r.None? <==> forall j :: i <= j < |m.segments| ==> !InSegment(m.segments[j], off)
  {
    if i == |m.segments| then None
    else if InSegment(m.segments[i], off) then Some(i)
    else FindSegmentFrom(m, off, i + 1)
  }

  /** `AIRCOPY_FindSegmentForOffset`: the first segment containing `off`. */
  function FindSegment(m: TransferMap, off: int): (r: Option<nat>)
    ensures r.Some? ==> r.value < |m.segments| && InSegment(m.segments[r.value], off)
    ensures r.Some? ==> forall j :: 0 <= j < r.value ==> !InSegment(m.segments[j], off)
    ensures r.None? <==> forall j :: 0 <= j < |m.segments| ==> !InSegment(m.segments[j], off)
  {
    FindSegmentFrom(m, off, 0)
  }

  // ---------------------------------------------------------------------
  // Block accounting
  // ---------------------------------------------------------------------

  /** A segment the sender can walk 64 bytes at a time without the 16-bit
      offset wrapping. */
  predicate SegmentOk(s: Segment) {
    s.start < s.end && s.end + BLOCK_SIZE <= 0x1_0000
  }

  /** Blocks needed to send `[off, s.end)`. */
  function BlocksFrom(s: Segment, off: int): nat {
    if off < s.end then CeilDiv(s.end - off, BLOCK_SIZE) else 0
  }

  /** Blocks needed to send segments `i..` in full. */
  function FullFrom(m: TransferMap, i: nat): nat
    requires i <= |m.segments|
    decreases |m.segments| - i
  {
    if i == |m.segments| then 0
    else BlocksFrom(m.segments[i], m.segments[i].start) + FullFrom(m, i + 1)
  }

  /** A map the sender walks correctly and whose declared block count is
      exactly what walking it sends. */
  predicate MapOk(m: TransferMap) {
    && |m.segments| > 0
    && (forall i :: 0 <= i < |m.segments| ==> SegmentOk(m.segments[i]))
    && FullFrom(m, 0) == m.totalBlocks
    && 0 < m.totalBlocks <= 120
  }

  lemma BankMapOk(bank: nat)
    requires bank < 8
    ensures MapOk(BankMap(bank))
    ensures FullFrom(BankMap(bank), 0) == 68
  {
    var m := BankMap(bank);
    assert BlocksFrom(m.segments[2], m.segments[2].start) == 4;
    assert BlocksFrom(m.segments[1], m.segments[1].start) == 32;
    assert BlocksFrom(m.segments[0], m.segments[0].start) == 32;
    assert FullFrom(m, 3) == 0;
    assert FullFrom(m, 2) == 4;
    assert FullFrom(m, 1) == 36;
  }

  lemma SettingsMapOk()
    ensures MapOk(SETTINGS_MAP)
    ensures FullFrom(SETTINGS_MAP, 0) == 6
  {
    assert BlocksFrom(SETTINGS_MAP.segments[0], 0xA000) == 6;
    assert FullFrom(SETTINGS_MAP, 1) == 0;
  }

  /** In every build configuration, the declared `total_blocks` of every map
      equals the sum of ceil(length / 64) over its segments: 68 for a bank,
      6 for the settings. */
  lemma CatalogOk(numBanks: nat, i: nat)
    requires ValidBankCount(numBanks) && i < |Catalog(numBanks)|
    ensures MapOk(Catalog(numBanks)[i])
    ensures Catalog(numBanks)[i].totalBlocks == if i < numBanks then 68 else 6
  {
    if i < numBanks {
      BankMapOk(i);
    } else {
      SettingsMapOk();
    }
  }

  lemma CurrentMapOk(index: nat)
    ensures MapOk(CurrentMap(index))
  {
    CatalogOk(NUM_BANKS, NormalizeIndex(index));
  }
}

=== FILE: aircopy_packet.dfy ===
/**
 * The AirCopy over-the-air packet: 36 little-endian 16-bit words
 *
 *   word 0       start marker 0xABCD
 *   word 1       logical EEPROM offset of the block
 *   words 2..33  64 payload bytes
 *   word 34      CRC of words 1..33 (66 bytes)
 *   word 35      end marker 0xDCBA
 *
 * with words 1..34 XOR-ed against a repeating 8-word key before sending and
 * after receiving. Words are modelled as unsigned integers below 2^16 and
 * the XOR as an explicit bitwise function. The CRC routine itself is not part of this model; it is a
 * parameter, any deterministic function of the 33 covered words.
 */
module AircopyPacket {
  import opened Common

  const PACKET_WORDS: nat := 36
  const PAYLOAD_BYTES: nat := 64
  const START_MARKER: u16 := 0xABCD
  const END_MARKER: u16 := 0xDCBA

  /** Bit 4 (mask 0x0010) of the modem's status register flags a damaged
      reception. */
  predicate StatusError(status: u16) {
    (status / 0x10) % 2 == 1
  }

  const OBFUSCATION: seq<u16> := [0x6C16, 0xE614, 0x912E, 0x400D, 0x3521, 0x40D5, 0x0313, 0x80E9]

  /** The checksum over words 1..33 of a packet. */
  type Crc = seq<u16> -> u16

  /** A packet buffer: exactly 36 words. */
  predicate IsPacket(buf: seq<u16>) {
    |buf| == PACKET_WORDS
  }

  /** The key word XOR-ed into word `w` (1 <= w <= 34): the loop index is
      `w - 1` and the key repeats every 8 words. */
  function KeyWord(w: nat): u16
    requires 1 <= w
  {
    OBFUSCATION[(w - 1) % 8]
  }

  /** The obfuscation pass, identical on both ends: words 1..34 are XOR-ed
      with the key, the two markers are left alone. */
  function Scramble(buf: seq<u16>): (r: seq<u16>)
    requires IsPacket(buf)
    ensures IsPacket(r)
    ensures r[0] == buf[0] && r[35] == buf[35]
  {
    seq(PACKET_WORDS, w requires 0 <= w < PACKET_WORDS =>
          if 1 <= w <= 34 then Xor16(buf[w], KeyWord(w)) else buf[w])
  }

  /** Scrambling twice restores the buffer. */
  lemma ScrambleInvolution(buf: seq<u16>)
    requires IsPacket(buf)
    ensures Scramble(Scramble(buf)) == buf
  {
    var once := Scramble(buf);
    forall w | 1 <= w <= 34
      ensures Scramble(once)[w] == buf[w]
    {
      XorInvolution(buf[w], KeyWord(w));
    }
  }

  /** Words 1..34 before scrambling: the offset, the payload as little-endian
      words, then the CRC over the 33 words just written. Words 0 and 35 are
      whatever the buffer already holds. */
  function Compose(buf: seq<u16>, offset: u16, payload: seq<u8>, crc: Crc): (r: seq<u16>)
    requires IsPacket(buf) && |payload| == PAYLOAD_BYTES
    ensures IsPacket(r)
    ensures r[0] == buf[0] && r[35] == buf[35]
    ensures r[1] == offset && WordsToBytes(r[2..34]) == payload
    ensures r[34] == crc(r[1..34])
  {
    var words := BytesToWords(payload);
    var body := [offset] + words;
    var head := [buf[0]] + body;
    var r := head + [crc(body), buf[35]];
    assert r[1..34] == body by {
      assert r[..34] == head;
      assert head[1..] == body;
    }
    assert r[2..34] == words by {
      assert body[1..] == words;
    }
    BytesWordsRoundTrip(payload);
    r
  }

  /** The packet the sender transmits for `offset` and `payload`. */
  function BuildPacket(buf: seq<u16>, offset: u16, payload: seq<u8>, crc: Crc): (r: seq<u16>)
    requires IsPacket(buf) && |payload| == PAYLOAD_BYTES
    ensures IsPacket(r)
    ensures r[0] == buf[0] && r[35] == buf[35]
    ensures Scramble(r) == Compose(buf, offset, payload, crc)
  {
    ScrambleInvolution(Compose(buf, offset, payload, crc));
    Scramble(Compose(buf, offset, payload, crc))
  }

  /** What the receiver makes of a complete buffer, in the order it checks:
      modem status and markers first, then (after de-scrambling) the CRC. */
  datatype Frame = BadFrame | CrcMismatch | Valid(offset: u16, payload: seq<u8>)

  function Decode(status: u16, buf: seq<u16>, crc: Crc): (r: Frame)
    requires IsPacket(buf)
    ensures r == BadFrame <==>
              StatusError(status) || buf[0] != START_MARKER || buf[35] != END_MARKER
    ensures r == CrcMismatch ==> Scramble(buf)[34] != crc(Scramble(buf)[1..34])
    ensures r.Valid? ==> |r.payload| == PAYLOAD_BYTES
  {
    if StatusError(status) || buf[0] != START_MARKER || buf[35] != END_MARKER then
      BadFrame
    else
      var d := Scramble(buf);
      if d[34] != crc(d[1..34]) then CrcMismatch
      else Valid(d[1], WordsToBytes(d[2..34]))
  }

  /** Round trip: a packet built by the sender into a buffer holding the two
      markers, received with a clean modem status, passes every check and
      yields the same offset and payload. */
  lemma BuildThenDecode(buf: seq<u16>, offset: u16, payload: seq<u8>, crc: Crc, status: u16)
    requires IsPacket(buf) && |payload| == PAYLOAD_BYTES
    requires buf[0] == START_MARKER && buf[35] == END_MARKER
    requires !StatusError(status)
    ensures Decode(status, BuildPacket(buf, offset, payload, crc), crc) == Valid(offset, payload)
  {
    ScrambleInvolution(Compose(buf, offset, payload, crc));
  }

  /** Conversely, every buffer the receiver accepts is exactly the packet the
      sender builds for the decoded offset and payload. */
  lemma DecodeValidIsBuilt(status: u16, buf: seq<u16>, crc: Crc)
    requires IsPacket(buf) && Decode(status, buf, crc).Valid?
    ensures var v := Decode(status, buf, crc);
            buf == BuildPacket(buf, v.offset, v.payload, crc)
  {
    var d := Scramble(buf);
    ComposeDecoded(buf, d, crc);
    ScrambleInvolution(buf);
  }

  /** A de-scrambled buffer whose CRC word matches is what `Compose` writes
      for its own offset and payload. */
  lemma ComposeDecoded(buf: seq<u16>, d: seq<u16>, crc: Crc)
    requires IsPacket(buf) && IsPacket(d)
    requires d[0] == buf[0] && d[35] == buf[35] && d[34] == crc(d[1..34])
    ensures Compose(buf, d[1], WordsToBytes(d[2..34]), crc) == d
  {
    var c := Compose(buf, d[1], WordsToBytes(d[2..34]), crc);
    assert c[2..34] == d[2..34] by {
      WordsBytesRoundTrip(c[2..34]);
      WordsBytesRoundTrip(d[2..34]);
    }
    assert c[1..34] == d[1..34] by {
      assert c[1..34] == [c[1]] + c[2..34];
      assert d[1..34] == [d[1]] + d[2..34];
    }
    forall w | 0 <= w < PACKET_WORDS
      ensures c[w] == d[w]
    {
      if 2 <= w < 34 {
        assert c[w] == c[2..34][w - 2];
        assert d[w] == d[2..34][w - 2];
      }
    }
  }
}

=== FILE: aircopy_session.dfy ===
/**
 * The AirCopy session: the firmware's global transfer state, gathered into
 * one record, and the completion test shared by the send path, the receive
 * path and the progress screen.
 */
module AircopySession {
  import opened Common
  import opened AircopyMaps
  import opened AircopyPacket

  datatype State = Ready | Transfer | Complete

  /** Bytes in the per-block error bitmap: one bit per block, 120 blocks. */
  const ERROR_BITMAP_BYTES: nat := 15

  /**
   * The globals one AirCopy session reads and writes:
   *   state        gAircopyState
   *   blocks       gAirCopyBlockNumber (blocks sent, or received and stored)
   *   errors       gErrorsDuringAirCopy
   *   shownErrors  lErrorsDuringAirCopy (the error count the gauge last saw)
   *   sendMode     gAirCopyIsSendMode (0 receive, 1 send)
   *   step         gAircopyStep (nonzero once a session has been started)
   *   mapIndex     gAircopyCurrentMapIndex
   *   inputIndex   gInputBoxIndex (digits typed into the frequency box)
   *   writeIndex   gFSKWriteIndex (words the modem has delivered)
   *   buffer       g_FSK_Buffer
   *   errorBits    the per-block error bitmap
   */
  datatype Session = Session(
    state: State,
    blocks: u16,
    errors: u16,
    shownErrors: u16,
    sendMode: u8,
    step: u8,
    mapIndex: nat,
    inputIndex: nat,
    writeIndex: nat,
    buffer: seq<u16>,
    errorBits: seq<bv8>)

  /** The fixed sizes of the two arrays. */
  predicate SessionOk(s: Session) {
    IsPacket(s.buffer) && |s.errorBits| == ERROR_BITMAP_BYTES
  }

  /** `blocks + errors` as the firmware computes it, in a `uint16_t`. */
  function Done(s: Session): u16 {
    Wrap16(s.blocks + s.errors)
  }

  /** `AIRCOPY_CheckComplete`: the session becomes complete exactly when the
      blocks and errors counted so far reach the active map's block total;
      otherwise nothing but the cursor normalisation changes. */
  function CheckComplete(s: Session): (r: Session)
    ensures r.state == Complete <==> s.state == Complete || Done(s) >= CurrentMap(s.mapIndex).totalBlocks
    ensures Done(s) < CurrentMap(s.mapIndex).totalBlocks ==> r.state == s.state
    ensures r == s.(mapIndex := NormalizeIndex(s.mapIndex), state := r.state)
  {
    var i := NormalizeIndex(s.mapIndex);
    var total := MAPS[i].totalBlocks;
    s.(mapIndex := i, state := if Done(s) >= total then Complete else s.state)
  }

  /** The map the session transfers. */
  function ActiveMap(s: Session): (m: TransferMap)
    ensures MapOk(m)
  {
    CurrentMapOk(s.mapIndex);
    CurrentMap(s.mapIndex)
  }
}

=== FILE: common.dfy ===
/**
 * Machine-level vocabulary shared by every part of the model: the C integer
 * widths the firmware uses, an Option type, and the little-endian view of a
 * 16-bit word as two bytes (the radio MCU is little-endian, so a `uint16_t`
 * buffer read through a `uint8_t *` yields low byte first).
 */
module Common {

  /** C `uint8_t` and `uint16_t`, as bounded integers. */
  type u8 = x: int | 0 <= x < 0x100
  type u16 = x: int | 0 <= x < 0x1_0000

  datatype Option<+T> = None | Some(value: T)

  /** Truncation of an `int` result stored back into a `uint16_t`
      (Dafny's `%` is Euclidean, which is exactly C's unsigned wrap). */
  function Wrap16(x: int): (r: u16)
    ensures 0 <= x < 0x1_0000 ==> r == x
    ensures (r - x) % 0x1_0000 == 0
  {
    x % 0x1_0000
  }

  /** Truncating before or after an addition gives the same 16-bit value. */
  lemma Wrap16Add(x: int, y: int)
    ensures Wrap16(Wrap16(x) + y) == Wrap16(x + y)
  {
    var q := x / 0x1_0000;
    assert x == 0x1_0000 * q + Wrap16(x);
    assert x + y == (Wrap16(x) + y) + 0x1_0000 * q;
  }

  /** Truncation of an `int` result stored back into a `uint8_t`. */
  function Wrap8(x: int): (r: u8)
    ensures 0 <= x < 0x100 ==> r == x
    ensures (r - x) % 0x100 == 0
  {
    x % 0x100
  }

  function Min(a: int, b: int): (m: int)
    ensures m <= a && m <= b
    ensures m == a || m == b
  {
    if a <= b then a else b
  }

  /** Integer division rounding up, as used for "blocks needed to cover n bytes". */
  function CeilDiv(n: nat, d: nat): (q: nat)
    requires d > 0
    ensures (q - 1) * d < n <= q * d || (n == 0 && q == 0)
  {
    (n + d - 1) / d
  }

  /** The two bytes of a 16-bit word, and the word made of two bytes. */
  function LowByte(w: u16): u8 { w % 0x100 }
  function HighByte(w: u16): u8 { w / 0x100 }
  function Join(lo: u8, hi: u8): u16 { lo + 0x100 * hi }

  lemma JoinSplit(w: u16)
    ensures Join(LowByte(w), HighByte(w)) == w
  {
  }

  lemma SplitJoin(lo: u8, hi: u8)
    ensures LowByte(Join(lo, hi)) == lo && HighByte(Join(lo, hi)) == hi
  {
  }

  /** The bytes of a word buffer in memory order (little-endian). */
  function WordsToBytes(ws: seq<u16>): (r: seq<u8>)
    ensures |r| == 2 * |ws|
  {
    seq(2 * |ws|, k requires 0 <= k < 2 * |ws| =>
          if k % 2 == 0 then LowByte(ws[k / 2]) else HighByte(ws[k / 2]))
  }

  /** Word `j` lands at bytes `2 j` (low) and `2 j + 1` (high). */
  lemma WordBytes(ws: seq<u16>, j: nat)
    requires j < |ws|
    ensures WordsToBytes(ws)[2 * j] == LowByte(ws[j]) && WordsToBytes(ws)[2 * j + 1] == HighByte(ws[j])
  {
  }

  /** A byte buffer (of even length) reinterpreted as little-endian words. */
  function BytesToWords(bs: seq<u8>): (r: seq<u16>)
    requires |bs| % 2 == 0
    ensures |r| == |bs| / 2
    ensures forall j :: 0 <= j < |r| ==> r[j] == Join(bs[2 * j], bs[2 * j + 1])
  {
    seq(|bs| / 2, j requires 0 <= j < |bs| / 2 => Join(bs[2 * j], bs[2 * j + 1]))
  }

  /** Reading a byte buffer as words and back gives the same bytes. */
  lemma BytesWordsRoundTrip(bs: seq<u8>)
    requires |bs| % 2 == 0
    ensures WordsToBytes(BytesToWords(bs)) == bs
  {
    forall k | 0 <= k < |bs|
      ensures WordsToBytes(BytesToWords(bs))[k] == bs[k]
    {
      ByteOfWords(bs, k);
    }
  }

  lemma ByteOfWords(bs: seq<u8>, k: nat)
    requires |bs| % 2 == 0 && k < |bs|
    ensures WordsToBytes(BytesToWords(bs))[k] == bs[k]
  {
    var j := k / 2;
    PairOfWords(bs, j);
    assert k == 2 * j || k == 2 * j + 1;
  }

  /** Both bytes of word `j` survive the round trip. */
  lemma PairOfWords(bs: seq<u8>, j: nat)
    requires |bs| % 2 == 0 && 2 * j + 1 < |bs|
    ensures var r := WordsToBytes(BytesToWords(bs));
            r[2 * j] == bs[2 * j] && r[2 * j + 1] == bs[2 * j + 1]
  {
    SplitJoin(bs[2 * j], bs[2 * j + 1]);
  }

  /** Writing a word buffer out as bytes and reading it back gives the same words. */
  lemma WordsBytesRoundTrip(ws: seq<u16>)
    ensures BytesToWords(WordsToBytes(ws)) == ws
  {
    var bs := WordsToBytes(ws);
    var r := BytesToWords(bs);
    forall j | 0 <= j < |ws|
      ensures r[j] == ws[j]
    {
      WordBytes(ws, j);
      JoinSplit(ws[j]);
    }
  }

  /** `2^n`. */
  function Pow2(n: nat): (r: nat)
    ensures r > 0
  {
    if n == 0 then 1 else 2 * Pow2(n - 1)
  }

  /** Bitwise exclusive or of two naturals, one binary digit at a time. */
  function Xor(a: nat, b: nat): nat
    decreases a + b
  {
    if a == 0 && b == 0 then 0
    else 2 * Xor(a / 2, b / 2) + (if a % 2 == b % 2 then 0 else 1)
  }

  /** XOR-ing the same key twice restores the value. */
  lemma {:induction false} XorInvolution(a: nat, k: nat)
    ensures Xor(Xor(a, k), k) == a
    decreases a + k
  {
    if a != 0 || k != 0 {
      XorInvolution(a / 2, k / 2);
      assert Xor(a, k) / 2 == Xor(a / 2, k / 2);
    }
  }

  /** XOR of two `n`-bit values is an `n`-bit value. */
  lemma {:induction false} XorBound(a: nat, b: nat, n: nat)
    requires a < Pow2(n) && b < Pow2(n)
    ensures Xor(a, b) < Pow2(n)
    decreases n
  {
    if a != 0 || b != 0 {
      XorBound(a / 2, b / 2, n - 1);
    }
  }

  /** C's `^` on two `uint16_t` values. */
  function Xor16(a: u16, b: u16): (r: u16)
    ensures Xor(r, b) == a
  {
    assert Pow2(16) == 0x1_0000 by {
      assert Pow2(4) == 0x10 && Pow2(8) == 0x100 && Pow2(12) == 0x1000;
    }
    XorBound(a, b, 16);
    XorInvolution(a, b);
    Xor(a, b)
  }
}

=== FILE: eeprom_compat.dfy ===
/**
 * The logical-to-physical storage translator: the rest of the firmware sees a
 * 16-bit "EEPROM" address space, which is backed by regions of a SPI flash
 * (PY25Q16) through a fixed table of mappings.  Addresses no mapping covers
 * form a "hole": reads of a hole give 0xFF, writes to it are dropped.
 *
 * The flash itself is abstract: a map from physical address to byte, where a
 * cell absent from the map reads as 0xFF (erased).
 */
module EepromCompat {
  import opened Common

  /** Physical address that marks "not backed by flash". */
  const HOLE_ADDR: int := 0x100_0000

  /** One table entry: `size` logical bytes from `logical` live at `phys`. */
  datatype Mapping = Mapping(phys: int, logical: u16, size: u16)

  /** Table entries are written as (physical, logical from, logical to). */
  function MkMapping(phys: int, from: u16, to: u16): (m: Mapping)
    requires from <= to
    ensures m.logical == from && m.logical + m.size == to && m.phys == phys
  {
    Mapping(phys, from, to - from)
  }

  const ADDR_MAPPINGS: seq<Mapping> := [
    MkMapping(0x000000, 0x0000, 0x1000),   // channel frequencies
    MkMapping(0x001000, 0x1000, 0x2000),
    MkMapping(0x002000, 0x2000, 0x3000),
    MkMapping(0x003000, 0x3000, 0x4000),
    MkMapping(0x004000, 0x4000, 0x5000),   // channel names
    MkMapping(0x005000, 0x5000, 0x6000),
    MkMapping(0x006000, 0x6000, 0x7000),
    MkMapping(0x007000, 0x7000, 0x8000),
    MkMapping(0x008000, 0x8000, 0x880E),   // channel and VFO attributes
    MkMapping(0x009000, 0x9000, 0x90D6),   // VFOs
    MkMapping(0x00A000, 0xA000, 0xA160),   // settings
    MkMapping(0x010000, 0xB000, 0xB200)    // calibration
  ]

  type Table = seq<Mapping>

  predicate Contains(m: Mapping, a: int) {
    m.logical <= a < m.logical + m.size
  }

  /** Entry `i` is non-empty, inside the 16-bit logical space, and backed by
      a physical range below HOLE_ADDR. */
  predicate EntryOk(tbl: Table, i: nat)
    requires i < |tbl|
  {
    && tbl[i].size > 0 && tbl[i].logical + tbl[i].size < 0x1_0000
    && 0 <= tbl[i].phys && tbl[i].phys + tbl[i].size <= HOLE_ADDR
  }

  /** Entry `i` ends, logically and physically, where or before entry `j` begins. */
  predicate Ordered(tbl: Table, i: nat, j: nat)
    requires i < j < |tbl|
  {
    tbl[i].logical + tbl[i].size <= tbl[j].logical && tbl[i].phys + tbl[i].size <= tbl[j].phys
  }

  /** What the translator relies on: every entry sound and the entries
      ordered by logical and by physical address without overlap. */
  predicate WellFormed(tbl: Table) {
    && (forall i :: 0 <= i < |tbl| ==> EntryOk(tbl, i))
    && (forall i, j :: 0 <= i < j < |tbl| ==> Ordered(tbl, i, j))
  }

  /** Each entry ends (logically and physically) where or before the next begins. */
  predicate NeighboursOrdered(tbl: Table) {
    forall i :: 0 < i < |tbl| ==>
      tbl[i - 1].logical + tbl[i - 1].size <= tbl[i].logical && tbl[i - 1].phys + tbl[i - 1].size <= tbl[i].phys
  }

  /** Ordering of neighbours extends to every pair of entries. */
  lemma {:induction false} NeighboursOrderedPairwise(tbl: Table, i: nat, j: nat)
    requires NeighboursOrdered(tbl) && forall k :: 0 <= k < |tbl| ==> tbl[k].size > 0
    requires i < j < |tbl|
    ensures tbl[i].logical + tbl[i].size <= tbl[j].logical && tbl[i].phys + tbl[i].size <= tbl[j].phys
    decreases j - i
  {
    if i + 1 < j {
      NeighboursOrderedPairwise(tbl, i, j - 1);
      assert tbl[j - 1].logical + tbl[j - 1].size <= tbl[j].logical;
    }
  }

  lemma TableWellFormed()
    ensures WellFormed(ADDR_MAPPINGS)
  {
    var t := ADDR_MAPPINGS;
    assert |t| == 12;
    forall i | 0 <= i < 12
      ensures EntryOk(t, i)
    {
    }
    forall i | 0 < i < 12
      ensures t[i - 1].logical + t[i - 1].size <= t[i].logical
      ensures t[i - 1].phys + t[i - 1].size <= t[i].phys
    {
    }
    forall i, j | 0 <= i < j < 12
      ensures Ordered(t, i, j)
    {
      NeighboursOrderedPairwise(t, i, j);
    }
  }

  /** First entry at index `i` or later that contains `a`. */
  function FindFrom(tbl: Table, a: int, i: nat): (r: Option<nat>)
    requires i <= |tbl|
    ensures r.Some? ==> i <= r.value < |tbl| && Contains(tbl[r.value], a)
    decreases |tbl| - i
  {
    if i == |tbl| then None
    else if Contains(tbl[i], a) then Some(i)
    else FindFrom(tbl, a, i + 1)
  }

  /** Entries the scan from `i` passes over do not contain `a`. */
  lemma {:induction false} FindFromMisses(tbl: Table, a: int, i: nat, j: nat)
    requires i <= j < |tbl|
    requires FindFrom(tbl, a, i).None? || j < FindFrom(tbl, a, i).value
    ensures !Contains(tbl[j], a)
    decreases |tbl| - i
  {
    if i < j {
      FindFromMisses(tbl, a, i + 1, j);
    }
  }

  /** The table scan of AddrTranslate: the lowest-index entry containing `a`. */
  function FirstMatch(tbl: Table, a: int): (r: Option<nat>)
    ensures r.Some? ==> r.value < |tbl| && Contains(tbl[r.value], a)
  {
    FindFrom(tbl, a, 0)
  }

  /** No entry before the first match (or, without a match, no entry at all)
      contains `a`, so an earlier entry shadows a later overlapping one. */
  lemma FirstMatchIsFirst(tbl: Table, a: int, j: nat)
    requires j < |tbl|
    requires FirstMatch(tbl, a).None? || j < FirstMatch(tbl, a).value
    ensures !Contains(tbl[j], a)
  {
    FindFromMisses(tbl, a, 0, j);
  }

  /** Two distinct entries of a well-formed table share neither a logical
      address nor a flash cell. */
  lemma EntriesDisjoint(tbl: Table, i: nat, j: nat)
    requires WellFormed(tbl)
    requires i < |tbl| && j < |tbl| && i != j
    ensures tbl[i].logical + tbl[i].size <= tbl[j].logical || tbl[j].logical + tbl[j].size <= tbl[i].logical
    ensures tbl[i].phys + tbl[i].size <= tbl[j].phys || tbl[j].phys + tbl[j].size <= tbl[i].phys
  {
    if i < j {
      assert Ordered(tbl, i, j);
    } else {
      assert Ordered(tbl, j, i);
    }
  }

  /** In a well-formed table the first match is the only match. */
  lemma OnlyMatch(tbl: Table, i: nat, a: int)
    requires WellFormed(tbl)
    requires i < |tbl| && Contains(tbl[i], a)
    ensures FirstMatch(tbl, a) == Some(i)
  {
    var r := FirstMatch(tbl, a);
    if r.None? {
      FirstMatchIsFirst(tbl, a, i);
    } else if r.value != i {
      EntriesDisjoint(tbl, i, r.value);
    }
  }

  /** Result of AddrTranslate: the three out-parameters.  `regionEnd` is None
      where the source leaves `*End_out` unwritten. */
  datatype Translation = Translation(phys: int, size: nat, regionEnd: Option<bool>)

  function AddrTranslate(tbl: Table, addr: u16, size: u16): (t: Translation)
    ensures FirstMatch(tbl, addr).None? ==> t == Translation(HOLE_ADDR, size, None)
    ensures FirstMatch(tbl, addr).Some? ==>
              var m := tbl[FirstMatch(tbl, addr).value];
              && t.size <= size
              && (size > 0 ==> t.size > 0)
              && addr + t.size <= m.logical + m.size
              && (t.size == size || addr + t.size == m.logical + m.size)
              && t.phys == (if m.phys == HOLE_ADDR then HOLE_ADDR else m.phys + (addr - m.logical))
              && t.regionEnd == (if m.phys == HOLE_ADDR then None else Some(addr + t.size == m.logical + m.size))
  {
    match FirstMatch(tbl, addr)
    case None => Translation(HOLE_ADDR, size, None)
    case Some(i) =>
      var m := tbl[i];
      var off := addr - m.logical;
      var rem := m.size - off;
      var clipped := if size > rem then rem else size;
      Translation(if HOLE_ADDR == m.phys then HOLE_ADDR else m.phys + off,
                  clipped,
                  if HOLE_ADDR != m.phys then Some(clipped == rem) else None)
  }

  // ---------------------------------------------------------------------------
  // Byte-level reference view of the logical address space
  // ---------------------------------------------------------------------------

  type Flash = map<int, u8>

  function ReadByte(f: Flash, p: int): u8 {
    if p in f then f[p] else 0xFF
  }

  predicate Mapped(tbl: Table, a: int) {
    FirstMatch(tbl, a).Some?
  }

  /** Physical address of a mapped logical address (HOLE_ADDR for a hole entry). */
  function PhysOf(tbl: Table, a: int): int
    requires Mapped(tbl, a)
  {
    var m := tbl[FirstMatch(tbl, a).value];
    if m.phys == HOLE_ADDR then HOLE_ADDR else m.phys + (a - m.logical)
  }

  /** A logical address whose byte is stored in flash. */
  predicate Backed(tbl: Table, a: int) {
    Mapped(tbl, a) && PhysOf(tbl, a) < HOLE_ADDR
  }

  /** What a single logical byte holds: its flash cell, or 0xFF if unbacked. */
  function LogicalByte(tbl: Table, f: Flash, a: int): u8 {
    if Backed(tbl, a) then ReadByte(f, PhysOf(tbl, a)) else 0xFF
  }

  /** In a well-formed table every mapped address is backed, by a sound entry. */
  lemma MatchFacts(tbl: Table, a: int)
    requires WellFormed(tbl) && Mapped(tbl, a)
    ensures var m := tbl[FirstMatch(tbl, a).value];
            && m.size > 0 && m.logical + m.size < 0x1_0000
            && 0 <= m.phys && m.phys + m.size <= HOLE_ADDR
    ensures Backed(tbl, a)
  {
    assert EntryOk(tbl, FirstMatch(tbl, a).value);
  }

  /** Distinct backed logical addresses live in distinct flash cells. */
  lemma PhysInjective(tbl: Table, a: int, b: int)
    requires WellFormed(tbl)
    requires Backed(tbl, a) && Backed(tbl, b) && PhysOf(tbl, a) == PhysOf(tbl, b)
    ensures a == b
  {
    var i := FirstMatch(tbl, a).value;
    var k := FirstMatch(tbl, b).value;
    MatchFacts(tbl, a);
    MatchFacts(tbl, b);
    if i != k {
      EntriesDisjoint(tbl, i, k);
    }
  }

  /** Offset (from `addr`) of the first unmapped byte of a request of `size`
      bytes, searching from offset `k`; `size` if there is none. */
  function GapFrom(tbl: Table, addr: int, k: nat, size: nat): (g: nat)
    requires k <= size
    ensures k <= g <= size
    ensures forall a :: addr + k <= a < addr + g ==> Mapped(tbl, a)
    ensures g < size ==> !Mapped(tbl, addr + g)
    decreases size - k
  {
    if k == size || !Mapped(tbl, addr + k) then k else GapFrom(tbl, addr, k + 1, size)
  }

  function GapStart(tbl: Table, addr: int, size: nat): (g: nat)
    ensures g <= size
    ensures forall a :: addr <= a < addr + g ==> Mapped(tbl, a)
    ensures g < size ==> !Mapped(tbl, addr + g)
  {
    GapFrom(tbl, addr, 0, size)
  }

  // ---------------------------------------------------------------------------
  // EEPROM_ReadBuffer
  // ---------------------------------------------------------------------------

  /** What a read of `size` bytes at `addr` yields at offset `k`: the logical
      byte up to the first unmapped address, 0xFF from there on (a miss hands
      the whole remainder of the request to the hole). */
  function ReadExpect(tbl: Table, f: Flash, addr: int, size: nat, k: nat): u8 {
    if k < GapStart(tbl, addr, size) then LogicalByte(tbl, f, addr + k) else 0xFF
  }

  /** PY25Q16_ReadBuffer: `n` consecutive flash cells. */
  function DeviceRead(f: Flash, p: int, n: nat): (r: seq<u8>)
    ensures |r| == n && forall t :: 0 <= t < n ==> r[t] == ReadByte(f, p + t)
  {
    seq<u8>(n, t requires 0 <= t < n => ReadByte(f, p + t))
  }

  /** Every byte of a hit piece has the same (and only) matching entry. */
  lemma HitPiece(tbl: Table, addr: u16, size: u16, b: int)
    requires WellFormed(tbl) && Mapped(tbl, addr)
    requires addr <= b < addr + AddrTranslate(tbl, addr, size).size
    ensures FirstMatch(tbl, b) == FirstMatch(tbl, addr)
    ensures addr + AddrTranslate(tbl, addr, size).size < 0x1_0000
  {
    MatchFacts(tbl, addr);
    OnlyMatch(tbl, FirstMatch(tbl, addr).value, b);
  }

  /** Byte `j` of a hit piece, as the loop copies it (0xFF for a hole base,
      the flash cell otherwise), is the logical byte at that address. */
  lemma HitByte(tbl: Table, f: Flash, addr: u16, size: u16, j: nat)
    requires WellFormed(tbl) && Mapped(tbl, addr)
    requires j < AddrTranslate(tbl, addr, size).size
    ensures var t := AddrTranslate(tbl, addr, size);
            (if t.phys >= HOLE_ADDR then 0xFF else ReadByte(f, t.phys + j)) == LogicalByte(tbl, f, addr + j)
    ensures var t := AddrTranslate(tbl, addr, size);
            t.phys < HOLE_ADDR <==> Backed(tbl, addr + j)
    ensures var t := AddrTranslate(tbl, addr, size);
            t.phys < HOLE_ADDR ==> PhysOf(tbl, addr + j) == t.phys + j
  {
    HitPiece(tbl, addr, size, addr + j);
    MatchFacts(tbl, addr);
  }

  /** A hit piece that starts before the first unmapped byte ends before it too. */
  lemma HitBeforeGap(tbl: Table, address: int, size: nat, done: nat)
    requires WellFormed(tbl)
    requires 0 <= address && done < size < 0x1_0000 && address + done < 0x1_0000
    requires done < GapStart(tbl, address, size)
    ensures done + AddrTranslate(tbl, address + done, size - done).size <= GapStart(tbl, address, size)
  {
    var g := GapStart(tbl, address, size);
    var t := AddrTranslate(tbl, address + done, size - done);
    if g < done + t.size {
      HitPiece(tbl, address + done, size - done, address + g);
    }
  }

  /** The bytes of one translated piece of a read agree with the byte view. */
  lemma ReadPiece(tbl: Table, f: Flash, address: int, size: nat, done: nat, t: Translation, chunk: seq<u8>)
    requires WellFormed(tbl)
    requires 0 <= address < 0x1_0000 && done < size < 0x1_0000 && address + done < 0x1_0000
    requires done <= GapStart(tbl, address, size)
    requires t == AddrTranslate(tbl, address + done, size - done)
    requires chunk == (if t.phys >= HOLE_ADDR then seq(t.size, _ => 0xFF) else DeviceRead(f, t.phys, t.size))
    ensures 0 < t.size <= size - done
    ensures forall j :: 0 <= j < t.size ==> chunk[j] == ReadExpect(tbl, f, address, size, done + j)
    ensures done + t.size < size ==> done + t.size <= GapStart(tbl, address, size) && address + done + t.size < 0x1_0000
  {
    var g := GapStart(tbl, address, size);
    var a0 := address + done;
    if done < g {
      assert Mapped(tbl, a0);
      MatchFacts(tbl, a0);
      HitBeforeGap(tbl, address, size, done);
      forall j | 0 <= j < t.size
        ensures chunk[j] == ReadExpect(tbl, f, address, size, done + j)
      {
        HitByte(tbl, f, a0, size - done, j);
      }
    } else {
      assert !Mapped(tbl, a0);
    }
  }

  /** EEPROM_ReadBuffer against an arbitrary well-formed table. */
  method ReadThrough(tbl: Table, f: Flash, address: u16, size: u8) returns (buf: seq<u8>)
    requires WellFormed(tbl)
    ensures |buf| == size
    ensures forall k :: 0 <= k < size ==> buf[k] == ReadExpect(tbl, f, address, size, k)
  {
    var addr: int := address;
    var rest: int := size;
    buf := [];
    while rest > 0
      invariant 0 <= rest <= size
      invariant addr == address + (size - rest) && |buf| == size - rest
      invariant rest > 0 ==> |buf| <= GapStart(tbl, address, size) && addr < 0x1_0000
      invariant forall k :: 0 <= k < |buf| ==> buf[k] == ReadExpect(tbl, f, address, size, k)
      decreases rest
    {
      var t := AddrTranslate(tbl, addr, rest);
      var chunk: seq<u8>;
      if t.phys >= HOLE_ADDR {
        chunk := seq(t.size, _ => 0xFF);
      } else {
        chunk := DeviceRead(f, t.phys, t.size);
      }
      ReadPiece(tbl, f, address, size, |buf|, t, chunk);
      buf := buf + chunk;
      addr := addr + t.size;
      rest := rest - t.size;
    }
  }

  /** EEPROM_ReadBuffer: `size` logical bytes from `address`. */
  method ReadBuffer(f: Flash, address: u16, size: u8) returns (buf: seq<u8>)
    ensures |buf| == size
    ensures forall k :: 0 <= k < size ==> buf[k] == ReadExpect(ADDR_MAPPINGS, f, address, size, k)
  {
    TableWellFormed();
    buf := ReadThrough(ADDR_MAPPINGS, f, address, size);
  }

  /** A read whose range has no mapped byte after an unmapped one returns
      exactly the logical bytes. */
  lemma ReadIsLogicalWithoutGap(tbl: Table, f: Flash, address: int, size: nat, k: nat)
    requires forall a, b :: address <= a < b < address + size && !Mapped(tbl, a) ==> !Mapped(tbl, b)
    requires k < size
    ensures ReadExpect(tbl, f, address, size, k) == LogicalByte(tbl, f, address + k)
  {
    var g := GapStart(tbl, address, size);
    if g <= k {
      assert !Mapped(tbl, address + g);
      if g < k {
        assert !Mapped(tbl, address + k);
      }
    }
  }

  /** A read that starts in the gap below the VFO region and runs into it gets
      0xFF for the mapped VFO bytes, whatever the flash holds. */
  lemma ReadAcrossGapIsBlank(f: Flash)
    ensures Backed(ADDR_MAPPINGS, 0x9000) && PhysOf(ADDR_MAPPINGS, 0x9000) == 0x9000
    ensures ReadExpect(ADDR_MAPPINGS, f, 0x8FF8, 16, 8) == 0xFF
    ensures ReadByte(f, 0x9000) != 0xFF ==>
              ReadExpect(ADDR_MAPPINGS, f, 0x8FF8, 16, 8) != LogicalByte(ADDR_MAPPINGS, f, 0x9000)
  {
    TableWellFormed();
    assert !Contains(ADDR_MAPPINGS[8], 0x8FF8) && !Contains(ADDR_MAPPINGS[9], 0x8FF8);
    assert FirstMatch(ADDR_MAPPINGS, 0x8FF8).None?;
    OnlyMatch(ADDR_MAPPINGS, 9, 0x9000);
  }

  // ---------------------------------------------------------------------------
  // EEPROM_WriteBuffer
  // ---------------------------------------------------------------------------

  /** One PY25Q16_WriteBuffer call: bytes to program and the append hint. */
  datatype DeviceWrite = DeviceWrite(phys: int, data: seq<u8>, append: bool)

  /** Programming `data` into consecutive flash cells from `p`. */
  function Program(f: Flash, p: int, data: seq<u8>): (g: Flash)
    ensures forall q :: ReadByte(g, q) == if p <= q < p + |data| then data[q - p] else ReadByte(f, q)
  {
    ProgramFrom(f, p, data, 0)
  }

  /** Programming the cells of `data[k..]`, in order. */
  function ProgramFrom(f: Flash, p: int, data: seq<u8>, k: nat): (g: Flash)
    requires k <= |data|
    ensures forall q :: ReadByte(g, q) == if p + k <= q < p + |data| then data[q - p] else ReadByte(f, q)
    decreases |data| - k
  {
    if k == |data| then f else ProgramFrom(f[p + k := data[k]], p, data, k + 1)
  }

  /** The logical byte at `a` once the first `n` bytes of `data` (written at
      `addr`) have landed: the data byte if `a` is backed and among them,
      the old logical byte otherwise. */
  function Written(tbl: Table, f: Flash, addr: int, data: seq<u8>, n: int, a: int): u8 {
    if addr <= a < addr + n && a - addr < |data| && Backed(tbl, a) then data[a - addr] else LogicalByte(tbl, f, a)
  }

  /** The logical byte at `a` after an 8-byte write of `data` at `addr`: only
      backed bytes before the first unmapped one take the new data. */
  function WriteExpect(tbl: Table, f: Flash, addr: int, data: seq<u8>, a: int): u8 {
    Written(tbl, f, addr, data, GapStart(tbl, addr, 8), a)
  }

  /** A flash cell holding one of the backed logical bytes `[addr, addr + n)`. */
  predicate Touched(tbl: Table, addr: int, n: int, p: int) {
    exists a :: addr <= a < addr + n && Backed(tbl, a) && PhysOf(tbl, a) == p
  }

  /** The flash after one translated piece of a write. */
  function WriteStep(f: Flash, data: seq<u8>, done: nat, t: Translation): Flash
    requires done + t.size <= |data|
  {
    if t.phys < HOLE_ADDR then Program(f, t.phys, data[done..done + t.size]) else f
  }

  /** Programming a backed hit piece changes exactly the logical bytes of
      that piece. */
  lemma ProgramHitByte(tbl: Table, f: Flash, a0: u16, size: u16, piece: seq<u8>, a: int)
    requires WellFormed(tbl) && Mapped(tbl, a0)
    requires AddrTranslate(tbl, a0, size).phys < HOLE_ADDR
    requires |piece| == AddrTranslate(tbl, a0, size).size
    ensures var t := AddrTranslate(tbl, a0, size);
            LogicalByte(tbl, Program(f, t.phys, piece), a) ==
              if a0 <= a < a0 + t.size then piece[a - a0] else LogicalByte(tbl, f, a)
  {
    var t := AddrTranslate(tbl, a0, size);
    if a0 <= a < a0 + t.size {
      HitByte(tbl, f, a0, size, a - a0);
    } else if Backed(tbl, a) {
      var p := PhysOf(tbl, a);
      if t.phys <= p < t.phys + t.size {
        HitByte(tbl, f, a0, size, p - t.phys);
        PhysInjective(tbl, a, a0 + (p - t.phys));
      }
    }
  }

  /** Each flash cell a backed hit piece programs holds a byte of that piece. */
  lemma ProgramHitCell(tbl: Table, a0: u16, size: u16, p: int)
    requires WellFormed(tbl) && Mapped(tbl, a0)
    requires AddrTranslate(tbl, a0, size).phys <= p < AddrTranslate(tbl, a0, size).phys + AddrTranslate(tbl, a0, size).size
    requires AddrTranslate(tbl, a0, size).phys < HOLE_ADDR
    ensures var b := a0 + (p - AddrTranslate(tbl, a0, size).phys);
            Backed(tbl, b) && PhysOf(tbl, b) == p
  {
    HitByte(tbl, map[], a0, size, p - AddrTranslate(tbl, a0, size).phys);
  }

  /** A hit piece of a write moves one more run of bytes into the logical view. */
  lemma WriteStepByte(tbl: Table, f0: Flash, f: Flash, address: int, data: seq<u8>, done: nat, a: int)
    requires WellFormed(tbl)
    requires 0 <= address && |data| == 8 && done < 8 && address + done < 0x1_0000
    requires Mapped(tbl, address + done)
    requires LogicalByte(tbl, f, a) == Written(tbl, f0, address, data, done, a)
    ensures var t := AddrTranslate(tbl, address + done, 8 - done);
            LogicalByte(tbl, WriteStep(f, data, done, t), a) == Written(tbl, f0, address, data, done + t.size, a)
  {
    var a0 := address + done;
    var t := AddrTranslate(tbl, a0, 8 - done);
    var inPiece := a0 <= a < a0 + t.size;
    assert !inPiece ==> Written(tbl, f0, address, data, done + t.size, a) == Written(tbl, f0, address, data, done, a);
    if t.phys < HOLE_ADDR {
      var piece := data[done..done + t.size];
      ProgramHitByte(tbl, f, a0, 8 - done, piece, a);
      if inPiece {
        HitByte(tbl, f, a0, 8 - done, a - a0);
        assert piece[a - a0] == data[a - address];
      }
    } else if inPiece {
      HitByte(tbl, f, a0, 8 - done, a - a0);
      assert !Backed(tbl, a);
    }
  }


  /** A hit piece of a write only programs cells of the bytes it covers. */
  lemma WriteStepCell(tbl: Table, f0: Flash, f: Flash, address: int, data: seq<u8>, done: nat, p: int)
    requires WellFormed(tbl)
    requires 0 <= address && |data| == 8 && done < 8 && address + done < 0x1_0000
    requires Mapped(tbl, address + done)
    requires ReadByte(f, p) == ReadByte(f0, p) || Touched(tbl, address, done, p)
    ensures var t := AddrTranslate(tbl, address + done, 8 - done);
            ReadByte(WriteStep(f, data, done, t), p) == ReadByte(f0, p) || Touched(tbl, address, done + t.size, p)
  {
    var a0 := address + done;
    var t := AddrTranslate(tbl, a0, 8 - done);
    if t.phys < HOLE_ADDR && t.phys <= p < t.phys + t.size {
      ProgramHitCell(tbl, a0, 8 - done, p);
      var b := a0 + (p - t.phys);
      assert address <= b < address + done + t.size && Backed(tbl, b) && PhysOf(tbl, b) == p;
    } else if Touched(tbl, address, done, p) {
      var a :| address <= a < address + done && Backed(tbl, a) && PhysOf(tbl, a) == p;
      assert address <= a < address + done + t.size;
    }
  }

  /** The logical view after the first `n` bytes of a write have landed. */
  ghost predicate LogicalState(tbl: Table, f0: Flash, f: Flash, address: int, data: seq<u8>, n: int) {
    forall a :: LogicalByte(tbl, f, a) == Written(tbl, f0, address, data, n, a)
  }

  /** Only cells of the first `n` logical bytes of a write differ from `f0`. */
  ghost predicate CellFrame(tbl: Table, f0: Flash, f: Flash, address: int, n: int) {
    forall p :: ReadByte(f, p) == ReadByte(f0, p) || Touched(tbl, address, n, p)
  }

  /** One hit piece of a write, inside the mapped prefix of the request. */
  lemma WritePiece(tbl: Table, f0: Flash, f: Flash, address: int, data: seq<u8>, done: nat, t: Translation)
    requires WellFormed(tbl)
    requires 0 <= address && |data| == 8 && done < 8 && address + done < 0x1_0000
    requires done <= GapStart(tbl, address, 8)
    requires t == AddrTranslate(tbl, address + done, 8 - done)
    requires LogicalState(tbl, f0, f, address, data, done)
    requires CellFrame(tbl, f0, f, address, done)
    ensures 0 < t.size <= 8 - done
    ensures done + t.size < 8 ==> done + t.size <= GapStart(tbl, address, 8) && address + done + t.size < 0x1_0000
    ensures t.phys < HOLE_ADDR ==> t.regionEnd.Some?
    ensures var n := Min(done + t.size, GapStart(tbl, address, 8));
            && LogicalState(tbl, f0, WriteStep(f, data, done, t), address, data, n)
            && CellFrame(tbl, f0, WriteStep(f, data, done, t), address, n)
  {
    var next := WriteStep(f, data, done, t);
    if done < GapStart(tbl, address, 8) {
      MatchFacts(tbl, address + done);
      HitBeforeGap(tbl, address, 8, done);
      forall a
        ensures LogicalByte(tbl, next, a) == Written(tbl, f0, address, data, done + t.size, a)
      {
        WriteStepByte(tbl, f0, f, address, data, done, a);
      }
      forall p
        ensures ReadByte(next, p) == ReadByte(f0, p) || Touched(tbl, address, done + t.size, p)
      {
        WriteStepCell(tbl, f0, f, address, data, done, p);
      }
    } else {
      assert !Mapped(tbl, address + done);
      assert next == f;
    }
  }

  /** The device writes an 8-byte write at `address` issues from its byte
      `done` on, in order: each translated piece that lands in flash is
      programmed from its physical address with its slice of `data`, the
      append hint telling whether the piece runs to the end of its mapping;
      pieces in holes or unmapped space issue nothing. */
  function WritePieces(tbl: Table, address: int, data: seq<u8>, done: nat): (r: seq<DeviceWrite>)
    requires |data| == 8 && done <= 8
    decreases 8 - done
  {
    if done == 8 || !(0 <= address + done < 0x1_0000) then []
    else
      var t := AddrTranslate(tbl, address + done, 8 - done);
      PieceWrites(tbl, data, done, t) + WritePieces(tbl, address, data, done + t.size)
  }

  /** A write that lies inside one mapping is a single device write of all 8
      bytes at the translated address, with the append hint set exactly when
      the write ends where the mapping does. */
  lemma SinglePieceWrite(tbl: Table, address: u16, data: seq<u8>, i: nat)
    requires WellFormed(tbl) && |data| == 8 && FirstMatch(tbl, address) == Some(i)
    requires address + 8 <= tbl[i].logical + tbl[i].size
    ensures WritePieces(tbl, address, data, 0) ==
              [DeviceWrite(tbl[i].phys + (address - tbl[i].logical), data, address + 8 == tbl[i].logical + tbl[i].size)]
  {
    var t := AddrTranslate(tbl, address, 8);
    assert EntryOk(tbl, i);
    assert t.phys < HOLE_ADDR && t.size == 8;
    var w := DeviceWrite(t.phys, data, t.regionEnd.value);
    assert PieceWrites(tbl, data, 0, t) == [w] by {
      assert data[0..8] == data;
    }
    TraceStep(tbl, address, data, 0);
    assert WritePieces(tbl, address, data, 8) == [];
  }

  /** The trace from byte `done` is the piece there followed by the trace
      after it. */
  lemma TraceStep(tbl: Table, address: int, data: seq<u8>, done: nat)
    requires |data| == 8 && done < 8 && 0 <= address + done < 0x1_0000
    ensures var t := AddrTranslate(tbl, address + done, 8 - done);
            WritePieces(tbl, address, data, done) == PieceWrites(tbl, data, done, t) + WritePieces(tbl, address, data, done + t.size)
  {
  }

  /** The device write, if any, of the piece `t` at byte `done`. */
  function PieceWrites(tbl: Table, data: seq<u8>, done: nat, t: Translation): seq<DeviceWrite>
    requires done + t.size <= |data| && (t.phys < HOLE_ADDR ==> t.regionEnd.Some?)
  {
    if t.phys < HOLE_ADDR then [DeviceWrite(t.phys, data[done..done + t.size], t.regionEnd.value)] else []
  }

  /** EEPROM_WriteBuffer against an arbitrary well-formed table. */
  method WriteThrough(tbl: Table, f: Flash, address: u16, data: seq<u8>) returns (f': Flash, writes: seq<DeviceWrite>)
    requires WellFormed(tbl)
    requires |data| == 8
    ensures writes == WritePieces(tbl, address, data, 0)
    ensures LogicalState(tbl, f, f', address, data, GapStart(tbl, address, 8))
    ensures CellFrame(tbl, f, f', address, GapStart(tbl, address, 8))
  {
    var addr: int := address;
    var rest: int := 8;
    var done: nat := 0;  // how far pBuffer has advanced
    f' := f;
    writes := [];
    ghost var g := GapStart(tbl, address, 8);
    assert Min(0, g) == 0;
    while rest > 0
      invariant 0 <= rest <= 8 && done == 8 - rest && addr == address + done
      invariant rest > 0 ==> done <= g && addr < 0x1_0000
      invariant TracePrefix(tbl, address, data, done, writes)
      invariant LogicalState(tbl, f, f', address, data, Min(done, g))
      invariant CellFrame(tbl, f, f', address, Min(done, g))
      decreases rest
    {
      var size, piece;
      f', size, piece := WriteOne(tbl, f, f', address, data, done);
      TraceExtend(tbl, address, data, done, size, writes, piece);
      writes := writes + piece;
      addr := addr + size;
      rest := rest - size;
      done := done + size;
    }
    TraceDone(tbl, address, data, writes);
  }

  /** `writes` is the part of the trace issued before byte `done`. */
  predicate TracePrefix(tbl: Table, address: int, data: seq<u8>, done: nat, writes: seq<DeviceWrite>)
    requires |data| == 8 && done <= 8
  {
    writes + WritePieces(tbl, address, data, done) == WritePieces(tbl, address, data, 0)
  }

  lemma TraceExtend(tbl: Table, address: int, data: seq<u8>, done: nat, size: nat,
                    writes: seq<DeviceWrite>, piece: seq<DeviceWrite>)
    requires |data| == 8 && done + size <= 8
    requires TracePrefix(tbl, address, data, done, writes)
    requires piece + WritePieces(tbl, address, data, done + size) == WritePieces(tbl, address, data, done)
    ensures TracePrefix(tbl, address, data, done + size, writes + piece)
  {
  }

  lemma TraceDone(tbl: Table, address: int, data: seq<u8>, writes: seq<DeviceWrite>)
    requires |data| == 8 && TracePrefix(tbl, address, data, 8, writes)
    ensures writes == WritePieces(tbl, address, data, 0)
  {
  }

  /** One pass of the write loop at byte `done`: translate, program the piece
      if it lands in flash, and report the device write it issued. */
  method WriteOne(tbl: Table, f0: Flash, f: Flash, address: u16, data: seq<u8>, done: nat)
    returns (f': Flash, size: nat, piece: seq<DeviceWrite>)
    requires WellFormed(tbl)
    requires |data| == 8 && done < 8 && address + done < 0x1_0000
    requires done <= GapStart(tbl, address, 8)
    requires LogicalState(tbl, f0, f, address, data, done)
    requires CellFrame(tbl, f0, f, address, done)
    ensures 0 < size <= 8 - done
    ensures done + size < 8 ==> done + size <= GapStart(tbl, address, 8) && address + done + size < 0x1_0000
    ensures piece + WritePieces(tbl, address, data, done + size) == WritePieces(tbl, address, data, done)
    ensures LogicalState(tbl, f0, f', address, data, Min(done + size, GapStart(tbl, address, 8)))
    ensures CellFrame(tbl, f0, f', address, Min(done + size, GapStart(tbl, address, 8)))
  {
    var t := AddrTranslate(tbl, address + done, 8 - done);
    WritePiece(tbl, f0, f, address, data, done, t);
    TraceStep(tbl, address, data, done);
    piece := [];
    if t.phys < HOLE_ADDR {
      piece := [DeviceWrite(t.phys, data[done..done + t.size], t.regionEnd.value)];
    }
    f' := WriteStep(f, data, done, t);
    size := t.size;
  }

  /** EEPROM_WriteBuffer: 8 bytes to `address`, split at mapping boundaries;
      holes and unmapped addresses are skipped. */
  method WriteBuffer(f: Flash, address: u16, data: seq<u8>) returns (f': Flash, writes: seq<DeviceWrite>)
    requires |data| == 8
    ensures writes == WritePieces(ADDR_MAPPINGS, address, data, 0)
    ensures forall a :: LogicalByte(ADDR_MAPPINGS, f', a) == WriteExpect(ADDR_MAPPINGS, f, address, data, a)
    ensures forall p :: ReadByte(f', p) == ReadByte(f, p) || Touched(ADDR_MAPPINGS, address, GapStart(ADDR_MAPPINGS, address, 8), p)
  {
    TableWellFormed();
    f', writes := WriteThrough(ADDR_MAPPINGS, f, address, data);
  }

  /** Reading back an 8-byte write: the bytes before the first unmapped
      address come back as written and the rest as 0xFF, and no logical byte
      outside the written range has changed. */
  lemma WriteThenRead(tbl: Table, f: Flash, f': Flash, address: u16, data: seq<u8>, k: nat, a: int)
    requires WellFormed(tbl) && |data| == 8 && k < 8
    requires LogicalState(tbl, f, f', address, data, GapStart(tbl, address, 8))
    ensures ReadExpect(tbl, f', address, 8, k) == if k < GapStart(tbl, address, 8) then data[k] else 0xFF
    ensures !(address <= a < address + 8) ==> LogicalByte(tbl, f', a) == LogicalByte(tbl, f, a)
  {
    if k < GapStart(tbl, address, 8) {
      MatchFacts(tbl, address + k);
    }
  }
}

=== FILE: screenshot.dfy ===
/**
 * The screenshot serialiser: the display contents are packed bit-plane by
 * bit-plane into a 1024-byte frame, the frame is compared in 8-byte chunks
 * with the previous one, and the changed chunks (plus one forced chunk per
 * call, or every chunk on request) go out as a delta message
 *
 *   0xFF  0xAA 0x55 0x02  len_hi len_lo  { index byte0 .. byte7 }*  0x0A
 *
 * where `len` is 9 times the number of chunk records. The serial line is the
 * output sequence; cable detection is an input.
 */
module Screenshot {
  import opened Common

  const COLUMNS: nat := 128
  const LINES: nat := 7
  const FRAME_BYTES: nat := 1024
  const CHUNKS: nat := 128
  const CHUNK_BYTES: nat := 8
  const RECORD_BYTES: nat := 9
  /** Calls a screenshot stays alive after the cable was last seen. */
  const KEEP_ALIVE: u8 := 10

  // ---------------------------------------------------------------------
  // Bits
  // ---------------------------------------------------------------------

  /** `(x >> b) & 1`. */
  function Bit(x: nat, b: nat): (r: nat)
    ensures r <= 1
  {
    if b == 0 then x % 2 else Bit(x / 2, b - 1)
  }

  predicate AreBits(bits: seq<nat>) {
    forall i :: 0 <= i < |bits| ==> bits[i] <= 1
  }

  /** The value whose bit `j` is `bits[lo + j]`, for `j < w`: what OR-ing
      `bit << bitCount` into an accumulator builds. */
  function PackRange(bits: seq<nat>, lo: nat, w: nat): nat
    requires lo + w <= |bits|
    decreases w
  {
    if w == 0 then 0 else bits[lo] + 2 * PackRange(bits, lo + 1, w - 1)
  }

  /** Bit `j` of a packed value is the `j`-th bit packed. */
  lemma {:induction false} PackRangeBit(bits: seq<nat>, lo: nat, w: nat, j: nat)
    requires AreBits(bits) && lo + w <= |bits| && j < w
    ensures Bit(PackRange(bits, lo, w), j) == bits[lo + j]
    decreases w
  {
    var rest := PackRange(bits, lo + 1, w - 1);
    assert PackRange(bits, lo, w) % 2 == bits[lo] && PackRange(bits, lo, w) / 2 == rest;
    if j > 0 {
      PackRangeBit(bits, lo + 1, w - 1, j - 1);
    }
  }

  lemma {:induction false} PackRangeBound(bits: seq<nat>, lo: nat, w: nat)
    requires AreBits(bits) && lo + w <= |bits|
    ensures PackRange(bits, lo, w) < Pow2(w)
    decreases w
  {
    if w > 0 {
      PackRangeBound(bits, lo + 1, w - 1);
    }
  }

  /** One more bit lands at the next position. */
  lemma {:induction false} PackRangeAppend(bits: seq<nat>, lo: nat, w: nat)
    requires lo + w < |bits|
    ensures PackRange(bits, lo, w + 1) == PackRange(bits, lo, w) + bits[lo + w] * Pow2(w)
    decreases w
  {
    if w > 0 {
      PackRangeAppend(bits, lo + 1, w - 1);
      var b, p := bits[lo + w], Pow2(w - 1);
      assert PackRange(bits, lo + 1, w) == PackRange(bits, lo + 1, w - 1) + b * p;
      assert b * Pow2(w) == 2 * (b * p);
    }
  }

  /** The value of the low `w` bits of `x`, rebuilt bit by bit. */
  function Low(x: nat, w: nat): nat
  {
    if w == 0 then 0 else x % 2 + 2 * Low(x / 2, w - 1)
  }

  lemma {:induction false} LowIsValue(x: nat, w: nat)
    requires x < Pow2(w)
    ensures Low(x, w) == x
  {
    if w > 0 {
      LowIsValue(x / 2, w - 1);
    }
  }

  // ---------------------------------------------------------------------
  // Frame packing
  // ---------------------------------------------------------------------

  /** The display: the status line and seven text lines of 128 column bytes. */
  datatype Display = Display(status: seq<u8>, lines: seq<seq<u8>>)

  predicate DisplayOk(d: Display) {
    && |d.status| == COLUMNS && |d.lines| == LINES
    && forall l :: 0 <= l < LINES ==> |d.lines[l]| == COLUMNS
  }

  const STREAM_BITS: nat := 8 * FRAME_BYTES

  /** Bit `n` of the stream: the status line first, then lines 0..6; within
      each, bit plane 0..7, and within a plane, column 0..127. */
  function StreamBit(d: Display, n: nat): (r: nat)
    requires DisplayOk(d) && n < STREAM_BITS
    ensures r <= 1
  {
    if n < 1024 then Bit(d.status[n % 128], n / 128)
    else
      var m := n - 1024;
      Bit(d.lines[m / 1024][m % 128], (m % 1024) / 128)
  }

  function Stream(d: Display): (bits: seq<nat>)
    requires DisplayOk(d)
    ensures |bits| == STREAM_BITS && AreBits(bits)
  {
    seq(STREAM_BITS, n requires 0 <= n < STREAM_BITS => StreamBit(d, n))
  }

  /** Byte `k` of a packed stream holds stream bits `8 k .. 8 k + 7`, the
      last byte holding whatever bits remain. */
  function PackedByte(bits: seq<nat>, k: nat): (r: u8)
    requires AreBits(bits) && 8 * k < |bits|
  {
    var w := Min(8, |bits| - 8 * k);
    PackRangeBound(bits, 8 * k, w);
    assert Pow2(w) <= 0x100 by { Pow2Mono(w, 8); }
    PackRange(bits, 8 * k, w)
  }

  lemma {:induction false} Pow2Mono(a: nat, b: nat)
    requires a <= b
    ensures Pow2(a) <= Pow2(b)
    decreases b
  {
    if a < b {
      Pow2Mono(a, b - 1);
    }
  }

  function PackedBytes(bits: seq<nat>): (r: seq<u8>)
    requires AreBits(bits)
    ensures |r| == CeilDiv(|bits|, 8)
  {
    seq(CeilDiv(|bits|, 8), k requires 0 <= k < CeilDiv(|bits|, 8) => PackedByte(bits, k))
  }

  /** The packing loop: an accumulator and a bit counter, flushing a byte
      every eight bits and once more at the end for a partial byte. */
  method PackStream(bits: seq<nat>) returns (out: seq<u8>)
    requires AreBits(bits)
    ensures out == PackedBytes(bits)
  {
    out := [];
    var acc: nat := 0;
    var bitCount: nat := 0;
    var n := 0;
    while n < |bits|
      invariant 0 <= n <= |bits| && bitCount < 8
      invariant n == 8 * |out| + bitCount
      invariant acc == PackRange(bits, 8 * |out|, bitCount)
      invariant forall k :: 0 <= k < |out| ==> out[k] == PackedByte(bits, k)
    {
      PackRangeAppend(bits, 8 * |out|, bitCount);
      acc := acc + bits[n] * Pow2(bitCount);
      bitCount := bitCount + 1;
      n := n + 1;
      if bitCount == 8 {
        assert acc == PackedByte(bits, |out|);
        out := out + [acc];
        acc := 0;
        bitCount := 0;
      }
    }
    if bitCount > 0 {
      assert acc == PackedByte(bits, |out|);
      out := out + [acc];
    }
  }

  /** The 1024-byte frame of a display. The stream holds exactly 8192 bits,
      so the frame always has 1024 bytes and the firmware's length check
      never fails. */
  function Frame(d: Display): (f: seq<u8>)
    requires DisplayOk(d)
    ensures |f| == FRAME_BYTES
  {
    PackedBytes(Stream(d))
  }

  /** How a viewer reads bit `n` of the stream back out of a frame. */
  function FrameBit(frame: seq<u8>, n: nat): nat
    requires n < 8 * |frame|
  {
    Bit(frame[n / 8], n % 8)
  }

  lemma FrameBitIsStreamBit(d: Display, n: nat)
    requires DisplayOk(d) && n < STREAM_BITS
    ensures FrameBit(Frame(d), n) == StreamBit(d, n)
  {
    var bits := Stream(d);
    var k := n / 8;
    assert Frame(d)[k] == PackRange(bits, 8 * k, 8);
    PackRangeBit(bits, 8 * k, 8, n % 8);
  }

  /** The byte a viewer reassembles from the eight bit planes at stream
      position `base` (one plane every 128 bits). */
  function ViewByte(frame: seq<u8>, base: nat): nat
    requires base + 896 < 8 * |frame|
  {
    ViewPlanes(frame, base, 0, 8)
  }

  /** Planes `b .. b + w - 1` at `base`, lowest plane first. */
  function ViewPlanes(frame: seq<u8>, base: nat, b: nat, w: nat): nat
    requires w == 0 || base + 128 * (b + w - 1) < 8 * |frame|
    decreases w
  {
    if w == 0 then 0 else FrameBit(frame, base + 128 * b) + 2 * ViewPlanes(frame, base, b + 1, w - 1)
  }

  /** Planes holding the bits of `y` reassemble to `y`'s low bits. */
  lemma {:induction false} ViewPlanesValue(frame: seq<u8>, base: nat, b: nat, w: nat, y: nat)
    requires w == 0 || base + 128 * (b + w - 1) < 8 * |frame|
    requires forall i :: 0 <= i < w ==> FrameBit(frame, base + 128 * (b + i)) == Bit(y, i)
    ensures ViewPlanes(frame, base, b, w) == Low(y, w)
    decreases w
  {
    if w > 0 {
      assert FrameBit(frame, base + 128 * (b + 0)) == Bit(y, 0);
      forall i | 0 <= i < w - 1
        ensures FrameBit(frame, base + 128 * (b + 1 + i)) == Bit(y / 2, i)
      {
        assert FrameBit(frame, base + 128 * (b + (i + 1))) == Bit(y, i + 1);
      }
      ViewPlanesValue(frame, base, b + 1, w - 1, y / 2);
    }
  }

  /** Column `col` of the status line (`line == 0`) or of text line
      `line - 1`. */
  function Pixel(d: Display, line: nat, col: nat): u8
    requires DisplayOk(d) && line <= LINES && col < COLUMNS
  {
    if line == 0 then d.status[col] else d.lines[line - 1][col]
  }

  /** That column byte as a viewer reconstructs it from a frame. */
  function ViewColumn(frame: seq<u8>, line: nat, col: nat): nat
    requires |frame| == FRAME_BYTES && line <= LINES && col < COLUMNS
  {
    ViewByte(frame, 1024 * line + col)
  }

  /** Where bit plane `b` of a column sits in the stream. */
  lemma StreamBitAt(d: Display, line: nat, b: nat, col: nat)
    requires DisplayOk(d) && line <= LINES && b < 8 && col < COLUMNS
    ensures 1024 * line + 128 * b + col < STREAM_BITS
    ensures StreamBit(d, 1024 * line + 128 * b + col) == Bit(Pixel(d, line, col), b)
  {
    var n := 1024 * line + 128 * b + col;
    var within := 128 * b + col;
    assert within / 128 == b && within % 128 == col;
    if line > 0 {
      var m := n - 1024;
      assert m == 1024 * (line - 1) + within;
      assert m / 1024 == line - 1 && m % 1024 == within;
      assert m % 128 == col;
    }
  }

  /** Round trip: the frame keeps every bit of every column byte, so a viewer
      recovers the display exactly. */
  lemma ViewRecoversDisplay(d: Display, line: nat, col: nat)
    requires DisplayOk(d) && line <= LINES && col < COLUMNS
    ensures ViewColumn(Frame(d), line, col) == Pixel(d, line, col)
  {
    FrameHoldsStream(d);
    ViewRecoversColumn(d, Frame(d), line, col);
  }

  /** Every bit of the stream can be read back out of the frame. */
  lemma FrameHoldsStream(d: Display)
    requires DisplayOk(d)
    ensures forall n :: 0 <= n < STREAM_BITS ==> FrameBit(Frame(d), n) == StreamBit(d, n)
  {
    forall n | 0 <= n < STREAM_BITS
      ensures FrameBit(Frame(d), n) == StreamBit(d, n)
    {
      FrameBitIsStreamBit(d, n);
    }
  }

  /** Any frame that holds the stream's bits shows the display's columns. */
  lemma ViewRecoversColumn(d: Display, frame: seq<u8>, line: nat, col: nat)
    requires DisplayOk(d) && |frame| == FRAME_BYTES && line <= LINES && col < COLUMNS
    requires forall n :: 0 <= n < STREAM_BITS ==> FrameBit(frame, n) == StreamBit(d, n)
    ensures ViewColumn(frame, line, col) == Pixel(d, line, col)
  {
    var x := Pixel(d, line, col);
    var base := 1024 * line + col;
    forall i | 0 <= i < 8
      ensures FrameBit(frame, base + 128 * (0 + i)) == Bit(x, i)
    {
      StreamBitAt(d, line, i, col);
      assert base + 128 * (0 + i) == 1024 * line + 128 * i + col;
    }
    ViewPlanesValue(frame, base, 0, 8, x);
    assert Pow2(8) == 0x100 by { assert Pow2(4) == 16; }
    LowIsValue(x, 8);
  }

  // ---------------------------------------------------------------------
  // Delta selection
  // ---------------------------------------------------------------------

  function Chunk(frame: seq<u8>, c: nat): (r: seq<u8>)
    requires |frame| == FRAME_BYTES && c < CHUNKS
    ensures |r| == CHUNK_BYTES
  {
    frame[8 * c..8 * c + 8]
  }

  /** A chunk goes out when it differs from the previous frame, when it is
      this call's forced chunk, or when a full update was asked for. */
  predicate Selected(frame: seq<u8>, previous: seq<u8>, forced: nat, force: bool, c: nat)
    requires |frame| == FRAME_BYTES && |previous| == FRAME_BYTES && c < CHUNKS
  {
    Chunk(frame, c) != Chunk(previous, c) || c == forced || force
  }

  /** The selected chunk indices from `c` on, ascending (the first pass). */
  function SelectedFrom(frame: seq<u8>, previous: seq<u8>, forced: nat, force: bool, c: nat): (cs: seq<nat>)
    requires |frame| == FRAME_BYTES && |previous| == FRAME_BYTES && c <= CHUNKS
    ensures |cs| <= CHUNKS - c
    ensures forall i :: 0 <= i < |cs| ==> c <= cs[i] < CHUNKS
    ensures forall k :: c <= k < CHUNKS ==> (k in cs <==> Selected(frame, previous, forced, force, k))
    decreases CHUNKS - c
  {
    if c == CHUNKS then []
    else
      var rest := SelectedFrom(frame, previous, forced, force, c + 1);
      if Selected(frame, previous, forced, force, c) then [c] + rest else rest
  }

  predicate Ascending(cs: seq<nat>) {
    forall i, j :: 0 <= i < j < |cs| ==> cs[i] < cs[j]
  }

  /** The chunks go out in ascending order, each at most once. */
  lemma {:induction false} SelectedAscending(frame: seq<u8>, previous: seq<u8>, forced: nat, force: bool, c: nat)
    requires |frame| == FRAME_BYTES && |previous| == FRAME_BYTES && c <= CHUNKS
    ensures Ascending(SelectedFrom(frame, previous, forced, force, c))
    decreases CHUNKS - c
  {
    if c < CHUNKS {
      var rest := SelectedFrom(frame, previous, forced, force, c + 1);
      SelectedAscending(frame, previous, forced, force, c + 1);
      if Selected(frame, previous, forced, force, c) {
        var cs := [c] + rest;
        forall i, j | 0 <= i < j < |cs|
          ensures cs[i] < cs[j]
        {
          assert cs[j] == rest[j - 1];
          if i > 0 {
            assert cs[i] == rest[i - 1];
          }
        }
      }
    }
  }

  /** A full update selects every chunk. */
  lemma {:induction false} ForceSelectsAll(frame: seq<u8>, previous: seq<u8>, forced: nat, c: nat)
    requires |frame| == FRAME_BYTES && |previous| == FRAME_BYTES && c <= CHUNKS
    ensures |SelectedFrom(frame, previous, forced, true, c)| == CHUNKS - c
    decreases CHUNKS - c
  {
    if c < CHUNKS {
      ForceSelectsAll(frame, previous, forced, c + 1);
    }
  }

  /** One chunk record: the index, then the chunk's eight bytes. */
  function Record(frame: seq<u8>, c: nat): (r: seq<u8>)
    requires |frame| == FRAME_BYTES && c < CHUNKS
    ensures |r| == RECORD_BYTES && r[0] == c && r[1..] == Chunk(frame, c)
  {
    [c] + Chunk(frame, c)
  }

  function Records(frame: seq<u8>, cs: seq<nat>): (rs: seq<seq<u8>>)
    requires |frame| == FRAME_BYTES && forall i :: 0 <= i < |cs| ==> cs[i] < CHUNKS
    ensures |rs| == |cs|
    ensures forall i :: 0 <= i < |cs| ==> rs[i] == Record(frame, cs[i])
  {
    seq(|cs|, i requires 0 <= i < |cs| => Record(frame, cs[i]))
  }

  /** The records back to back, as the serial line carries them. */
  function Concat(rs: seq<seq<u8>>): seq<u8>
  {
    if |rs| == 0 then [] else rs[0] + Concat(rs[1..])
  }

  lemma {:induction false} ConcatLength(rs: seq<seq<u8>>)
    requires forall i :: 0 <= i < |rs| ==> |rs[i]| == RECORD_BYTES
    ensures |Concat(rs)| == RECORD_BYTES * |rs|
  {
    if |rs| > 0 {
      ConcatLength(rs[1..]);
    }
  }

  /** A viewer's split of a delta body into 9-byte records. */
  function SplitRecords(body: seq<u8>): (rs: seq<seq<u8>>)
    decreases |body|
  {
    if |body| < RECORD_BYTES then [] else [body[..RECORD_BYTES]] + SplitRecords(body[RECORD_BYTES..])
  }

  lemma {:induction false} SplitConcat(rs: seq<seq<u8>>)
    requires forall i :: 0 <= i < |rs| ==> |rs[i]| == RECORD_BYTES
    ensures SplitRecords(Concat(rs)) == rs
  {
    if |rs| > 0 {
      SplitConcat(rs[1..]);
      ConcatLength(rs[1..]);
      var body := Concat(rs);
      assert body[..RECORD_BYTES] == rs[0];
      assert body[RECORD_BYTES..] == Concat(rs[1..]);
      assert rs == [rs[0]] + rs[1..];
    }
  }

  /** Copying one record's bytes over its chunk (`memcpy(prev, cur, 8)` on
      the firmware side; the same on the viewer side). */
  function ApplyRecord(view: seq<u8>, r: seq<u8>): (v: seq<u8>)
    requires |view| == FRAME_BYTES && |r| == RECORD_BYTES && r[0] < CHUNKS
    ensures |v| == FRAME_BYTES
    ensures forall k :: 0 <= k < FRAME_BYTES ==> v[k] == if k / 8 == r[0] then r[1 + k % 8] else view[k]
  {
    seq(FRAME_BYTES, k requires 0 <= k < FRAME_BYTES => if k / 8 == r[0] then r[1 + k % 8] else view[k])
  }

  predicate RecordsOk(rs: seq<seq<u8>>) {
    forall i :: 0 <= i < |rs| ==> |rs[i]| == RECORD_BYTES && rs[i][0] < CHUNKS
  }

  function Apply(view: seq<u8>, rs: seq<seq<u8>>): (v: seq<u8>)
    requires |view| == FRAME_BYTES && RecordsOk(rs)
    ensures |v| == FRAME_BYTES
    decreases |rs|
  {
    if |rs| == 0 then view else Apply(ApplyRecord(view, rs[0]), rs[1..])
  }

  /** Applying the records of a list of chunks replaces exactly those
      chunks with the frame's bytes. */
  lemma {:induction false} ApplyRecords(frame: seq<u8>, cs: seq<nat>, view: seq<u8>, k: nat)
    requires |frame| == FRAME_BYTES && |view| == FRAME_BYTES && k < FRAME_BYTES
    requires forall i :: 0 <= i < |cs| ==> cs[i] < CHUNKS
    ensures RecordsOk(Records(frame, cs))
    ensures Apply(view, Records(frame, cs))[k] == if k / 8 in cs then frame[k] else view[k]
    decreases |cs|
  {
    var rs := Records(frame, cs);
    if |cs| > 0 {
      assert rs[1..] == Records(frame, cs[1..]);
      var r := rs[0];
      ApplyRecords(frame, cs[1..], ApplyRecord(view, r), k);
      if k / 8 == cs[0] {
        assert k == 8 * cs[0] + k % 8;
        assert r[1..][k % 8] == Chunk(frame, cs[0])[k % 8];
      }
      assert k / 8 in cs <==> k / 8 == cs[0] || k / 8 in cs[1..];
    }
  }

  /** The delta carries everything that changed: applying it to the
      previous frame gives the current one. */
  lemma DeltaRebuildsFrame(frame: seq<u8>, previous: seq<u8>, forced: nat, force: bool)
    requires |frame| == FRAME_BYTES && |previous| == FRAME_BYTES
    ensures var rs := Records(frame, SelectedFrom(frame, previous, forced, force, 0));
            RecordsOk(rs) && Apply(previous, rs) == frame
  {
    var cs := SelectedFrom(frame, previous, forced, force, 0);
    ApplyRecords(frame, cs, previous, 0);
    var v := Apply(previous, Records(frame, cs));
    DeltaRebuildsBytes(frame, previous, forced, force);
    assert v == frame;
  }

  /** Every byte of that, one at a time. */
  lemma DeltaRebuildsBytes(frame: seq<u8>, previous: seq<u8>, forced: nat, force: bool)
    requires |frame| == FRAME_BYTES && |previous| == FRAME_BYTES
    ensures var rs := Records(frame, SelectedFrom(frame, previous, forced, force, 0));
            RecordsOk(rs) && forall k :: 0 <= k < FRAME_BYTES ==> Apply(previous, rs)[k] == frame[k]
  {
    var rs := Records(frame, SelectedFrom(frame, previous, forced, force, 0));
    ApplyRecords(frame, SelectedFrom(frame, previous, forced, force, 0), previous, 0);
    forall k | 0 <= k < FRAME_BYTES
      ensures Apply(previous, rs)[k] == frame[k]
    {
      DeltaRebuildsByte(frame, previous, forced, force, k);
    }
  }

  /** One byte of that: a chunk left out of the delta was unchanged. */
  lemma DeltaRebuildsByte(frame: seq<u8>, previous: seq<u8>, forced: nat, force: bool, k: nat)
    requires |frame| == FRAME_BYTES && |previous| == FRAME_BYTES && k < FRAME_BYTES
    ensures var rs := Records(frame, SelectedFrom(frame, previous, forced, force, 0));
            RecordsOk(rs) && Apply(previous, rs)[k] == frame[k]
  {
    var cs := SelectedFrom(frame, previous, forced, force, 0);
    var c := k / 8;
    if c !in cs {
      assert !Selected(frame, previous, forced, force, c);
    }
    RebuildByte(frame, previous, cs, k);
  }

  /** Applying the records of `cs` gets byte `k` right when its chunk is in
      `cs` or was the same in both frames. */
  lemma RebuildByte(frame: seq<u8>, previous: seq<u8>, cs: seq<nat>, k: nat)
    requires |frame| == FRAME_BYTES && |previous| == FRAME_BYTES && k < FRAME_BYTES
    requires forall i :: 0 <= i < |cs| ==> cs[i] < CHUNKS
    requires k / 8 !in cs ==> Chunk(frame, k / 8) == Chunk(previous, k / 8)
    ensures RecordsOk(Records(frame, cs)) && Apply(previous, Records(frame, cs))[k] == frame[k]
  {
    ApplyRecords(frame, cs, previous, k);
    var c := k / 8;
    if c !in cs {
      assert k == 8 * c + k % 8;
      assert Chunk(frame, c)[k % 8] == Chunk(previous, c)[k % 8];
    }
  }

  /** With the frame unchanged and no full update, only the forced chunk is
      selected. */
  lemma {:induction false} OnlyForcedSelected(frame: seq<u8>, forced: nat, c: nat)
    requires |frame| == FRAME_BYTES && c <= CHUNKS
    ensures SelectedFrom(frame, frame, forced, false, c) == if c <= forced < CHUNKS then [forced] else []
    decreases CHUNKS - c
  {
    if c < CHUNKS {
      OnlyForcedSelected(frame, forced, c + 1);
    }
  }

  // ---------------------------------------------------------------------
  // One call
  // ---------------------------------------------------------------------

  /** The serialiser's statics and the UART lock counter. */
  datatype Shot = Shot(lock: nat, keepAlive: u8, forcedBlock: u8, previous: seq<u8>)

  predicate ShotOk(s: Shot) {
    |s.previous| == FRAME_BYTES
  }

  const SHOT_AT_BOOT: Shot := Shot(0, KEEP_ALIVE, 0, seq(FRAME_BYTES, _ => 0))

  datatype ShotResult = ShotResult(shot: Shot, out: seq<u8>)

  const VERSION_MARKER: u8 := 0xFF
  const END_BYTE: u8 := 0x0A

  /** Version marker, sync bytes, format 2, and the big-endian length. */
  function Header(deltaLen: u16): (h: seq<u8>)
    ensures |h| == 6 && (h[4] as int) * 0x100 + h[5] == deltaLen
  {
    [VERSION_MARKER, 0xAA, 0x55, 0x02, deltaLen / 0x100, deltaLen % 0x100]
  }

  /** `getScreenShot(force)`. While the UART holds the lock the call only
      counts the lock down. The keep-alive counter is refilled while the
      cable is seen and the call does nothing on the tick it runs out and
      after. Otherwise the frame is built, the forced chunk moves on, and the
      selected chunks are sent and copied into the previous frame. */
  function GetScreenShot(s: Shot, d: Display, cable: bool, force: bool): (r: ShotResult)
    requires ShotOk(s) && DisplayOk(d)
    ensures ShotOk(r.shot)
    ensures s.lock > 0 ==> r == ShotResult(s.(lock := s.lock - 1), [])
    ensures s.lock == 0 ==>
              && r.shot.lock == 0
              && r.shot.keepAlive == (if cable then KEEP_ALIVE - 1 else Max0(s.keepAlive - 1))
    ensures |r.out| > 0 ==> Live(s, cable)
    ensures Live(s, cable) ==> r.shot.forcedBlock == (s.forcedBlock + 1) % CHUNKS
    ensures s.lock == 0 && !cable && s.keepAlive <= 1 ==> r == ShotResult(s.(keepAlive := 0), [])
    ensures |r.out| == 0 ==> r.shot.previous == s.previous
    ensures |r.out| == 0 || |r.out| >= 7
  {
    if s.lock > 0 then ShotResult(s.(lock := s.lock - 1), [])
    else if !cable && s.keepAlive <= 1 then ShotResult(s.(keepAlive := 0), [])
    else Capture(s.(keepAlive := (if cable then KEEP_ALIVE else s.keepAlive) - 1), d, force)
  }

  /** The part of a call past the lock and the keep-alive countdown: build
      the frame, send the delta, move the forced chunk on. */
  function Capture(s: Shot, d: Display, force: bool): (r: ShotResult)
    requires ShotOk(s) && DisplayOk(d)
    ensures ShotOk(r.shot)
    ensures r.shot == s.(forcedBlock := (s.forcedBlock + 1) % CHUNKS, previous := r.shot.previous)
    ensures |r.out| == 0 ==> r.shot.previous == s.previous
    ensures |r.out| == 0 || |r.out| >= 7
  {
    var delta := SendDelta(s.previous, Frame(d), s.forcedBlock, force);
    ShotResult(s.(forcedBlock := (s.forcedBlock + 1) % CHUNKS, previous := delta.previous), delta.out)
  }

  /** The delta stage of a call: the message and the previous frame after
      the sent chunks are copied into it. */
  datatype Delta = Delta(previous: seq<u8>, out: seq<u8>)

  function SendDelta(previous: seq<u8>, frame: seq<u8>, forced: nat, force: bool): (r: Delta)
    requires |previous| == FRAME_BYTES && |frame| == FRAME_BYTES
    ensures |r.previous| == FRAME_BYTES
    ensures |r.out| == 0 ==> r.previous == previous
    ensures |r.out| == 0 || |r.out| >= 7
  {
    var cs := SelectedFrom(frame, previous, forced, force, 0);
    if |cs| == 0 then Delta(previous, [])
    else Delta(Apply(previous, Records(frame, cs)), Message(frame, cs))
  }

  /** The message for a non-empty list of chunks: header, records, end byte. */
  function Message(frame: seq<u8>, cs: seq<nat>): seq<u8>
    requires |frame| == FRAME_BYTES && 0 < |cs| <= CHUNKS
    requires forall i :: 0 <= i < |cs| ==> cs[i] < CHUNKS
  {
    Header(RECORD_BYTES * |cs|) + Concat(Records(frame, cs)) + [END_BYTE]
  }

  /** A message's layout: 7 framing bytes around one 9-byte record per chunk,
      the length field counting the record bytes, the first record's index
      right after the header. */
  lemma MessageLayout(frame: seq<u8>, cs: seq<nat>)
    requires |frame| == FRAME_BYTES && 0 < |cs| <= CHUNKS
    requires forall i :: 0 <= i < |cs| ==> cs[i] < CHUNKS
    ensures var m := Message(frame, cs);
            && |m| == 7 + RECORD_BYTES * |cs|
            && m[..4] == [VERSION_MARKER, 0xAA, 0x55, 0x02]
            && (m[4] as int) * 0x100 + m[5] == |Body(m)|
            && |Body(m)| % RECORD_BYTES == 0
            && m[6] == cs[0]
            && m[|m| - 1] == END_BYTE
            && Body(m) == Concat(Records(frame, cs))
  {
    var rs := Records(frame, cs);
    var m := Message(frame, cs);
    var h := Header(RECORD_BYTES * |cs|);
    ConcatLength(rs);
    assert Body(m) == Concat(rs);
    assert |Body(m)| % RECORD_BYTES == 0 by { MultipleMod(|cs|); }
    assert m[..4] == h[..4];
    assert m[6] == Concat(rs)[0] == rs[0][0];
  }

  /** A viewer splitting a message body recovers its records. */
  lemma MessageSplits(frame: seq<u8>, cs: seq<nat>)
    requires |frame| == FRAME_BYTES && 0 < |cs| <= CHUNKS
    requires forall i :: 0 <= i < |cs| ==> cs[i] < CHUNKS
    ensures |Message(frame, cs)| >= 7
    ensures SplitRecords(Body(Message(frame, cs))) == Records(frame, cs)
  {
    MessageLayout(frame, cs);
    SplitConcat(Records(frame, cs));
  }

  lemma MultipleMod(n: nat)
    ensures (RECORD_BYTES * n) % RECORD_BYTES == 0
  {
  }

  /** The call gets past the lock and the keep-alive countdown. */
  predicate Live(s: Shot, cable: bool) {
    s.lock == 0 && (cable || s.keepAlive >= 2)
  }

  function Max0(x: int): nat {
    if x < 0 then 0 else x
  }

  /** The delta body between the header and the end byte. */
  function Body(out: seq<u8>): seq<u8>
    requires |out| >= 7
  {
    out[6..|out| - 1]
  }

  /** Past the lock and the keep-alive countdown, a call sends exactly the
      delta of the current frame against its previous frame. */
  lemma LiveShot(s: Shot, d: Display, cable: bool, force: bool)
    requires ShotOk(s) && DisplayOk(d) && Live(s, cable)
    ensures var r := GetScreenShot(s, d, cable, force);
            var delta := SendDelta(s.previous, Frame(d), s.forcedBlock, force);
            r.out == delta.out && r.shot.previous == delta.previous
  {
  }

  /** Every message is framed the same way: marker, sync bytes, format, a
      big-endian length equal to the body's, whole 9-byte records, end byte.
      A forced chunk in range always yields at least one record. */
  lemma DeltaFraming(previous: seq<u8>, frame: seq<u8>, forced: nat, force: bool)
    requires |previous| == FRAME_BYTES && |frame| == FRAME_BYTES
    ensures var out := SendDelta(previous, frame, forced, force).out;
            && (forced < CHUNKS ==> |out| >= 7 + RECORD_BYTES)
            && (|out| > 0 ==>
                  && |out| >= 7
                  && out[..4] == [VERSION_MARKER, 0xAA, 0x55, 0x02]
                  && (out[4] as int) * 0x100 + out[5] == |Body(out)|
                  && |Body(out)| % RECORD_BYTES == 0
                  && out[|out| - 1] == END_BYTE)
  {
    var cs := SelectedFrom(frame, previous, forced, force, 0);
    if forced < CHUNKS {
      assert forced in cs;
    }
    if |cs| > 0 {
      MessageLayout(frame, cs);
    }
  }

  /** The same framing for every call of the serialiser. */
  lemma ShotFraming(s: Shot, d: Display, cable: bool, force: bool)
    requires ShotOk(s) && DisplayOk(d)
    ensures var r := GetScreenShot(s, d, cable, force);
            && (Live(s, cable) && s.forcedBlock < CHUNKS ==> |r.out| >= 7 + RECORD_BYTES)
            && (|r.out| > 0 ==>
                  && |r.out| >= 7
                  && r.out[..4] == [VERSION_MARKER, 0xAA, 0x55, 0x02]
                  && (r.out[4] as int) * 0x100 + r.out[5] == |Body(r.out)|
                  && |Body(r.out)| % RECORD_BYTES == 0
                  && r.out[|r.out| - 1] == END_BYTE)
  {
    if Live(s, cable) {
      LiveShot(s, d, cable, force);
      DeltaFraming(s.previous, Frame(d), s.forcedBlock, force);
    }
  }

  /** A viewer holding the same previous frame as the sender, that splits the
      message body into records and copies each one over its chunk, ends up
      with the current frame; the sender's own copy ends up the same. */
  lemma DeltaTracksFrame(previous: seq<u8>, frame: seq<u8>, forced: nat, force: bool)
    requires |previous| == FRAME_BYTES && |frame| == FRAME_BYTES
    ensures var delta := SendDelta(previous, frame, forced, force);
            |delta.out| > 0 ==>
              var rs := SplitRecords(Body(delta.out));
              && RecordsOk(rs)
              && Apply(previous, rs) == frame
              && delta.previous == frame
  {
    var cs := SelectedFrom(frame, previous, forced, force, 0);
    if |cs| > 0 {
      MessageSplits(frame, cs);
      DeltaRebuildsFrame(frame, previous, forced, force);
    }
  }

  lemma ViewerTracksFrame(s: Shot, d: Display, cable: bool, force: bool)
    requires ShotOk(s) && DisplayOk(d)
    ensures var r := GetScreenShot(s, d, cable, force);
            |r.out| > 0 ==>
              var rs := SplitRecords(Body(r.out));
              && RecordsOk(rs)
              && Apply(s.previous, rs) == Frame(d)
              && r.shot.previous == Frame(d)
  {
    if Live(s, cable) {
      LiveShot(s, d, cable, force);
      DeltaTracksFrame(s.previous, Frame(d), s.forcedBlock, force);
    }
  }

  /** A full update sends all 128 chunks: 7 framing bytes and 1152 bytes of
      records. */
  lemma DeltaForceSendsEverything(previous: seq<u8>, frame: seq<u8>, forced: nat)
    requires |previous| == FRAME_BYTES && |frame| == FRAME_BYTES
    ensures |SendDelta(previous, frame, forced, true).out| == 7 + RECORD_BYTES * CHUNKS
  {
    ForceSelectsAll(frame, previous, forced, 0);
    MessageLayout(frame, SelectedFrom(frame, previous, forced, true, 0));
  }

  lemma ForceSendsEverything(s: Shot, d: Display, cable: bool)
    requires ShotOk(s) && DisplayOk(d) && Live(s, cable)
    ensures |GetScreenShot(s, d, cable, true).out| == 7 + RECORD_BYTES * CHUNKS
  {
    LiveShot(s, d, cable, true);
    DeltaForceSendsEverything(s.previous, Frame(d), s.forcedBlock);
  }

  /** Without a change and without a full update, the delta is the forced
      chunk alone. */
  lemma DeltaUnchanged(frame: seq<u8>, forced: nat)
    requires |frame| == FRAME_BYTES && forced < CHUNKS
    ensures var out := SendDelta(frame, frame, forced, false).out;
            |out| == 7 + RECORD_BYTES && out[6] == forced
  {
    OnlyForcedSelected(frame, forced, 0);
    MessageLayout(frame, [forced]);
  }

  /** Without a change, a live call still sends the forced chunk, and only
      that one; the next call forces the next chunk round the frame. */
  lemma UnchangedSendsForcedChunk(s: Shot, d: Display, cable: bool)
    requires ShotOk(s) && DisplayOk(d) && s.previous == Frame(d) && s.forcedBlock < CHUNKS
    requires Live(s, cable)
    ensures var r := GetScreenShot(s, d, cable, false);
            && |r.out| == 7 + RECORD_BYTES
            && r.out[6] == s.forcedBlock
            && r.shot.forcedBlock == (s.forcedBlock + 1) % CHUNKS
  {
    LiveShot(s, d, cable, false);
    DeltaUnchanged(s.previous, s.forcedBlock as nat);
  }
}

=== FILE: ui_aircopy.dfy ===
/**
 * The arithmetic behind the AirCopy progress screen: the per-block error
 * bitmap, the clamped percentage, the 120-column gauge and the state reset
 * that rendering a finished session performs. Text and pixels are not
 * modelled; the gauge is the row of column bytes it draws.
 */
module UiAircopy {
  import opened Common
  import opened AircopyMaps
  import opened AircopySession

  /** Visible width of the gauge, in columns. */
  const BAR_WIDTH: nat := 120

  /** Column byte of a block received or sent without error. */
  const CELL_OK: bv8 := 0xBD
  /** Column byte of a block not yet processed, or processed with an error. */
  const CELL_EMPTY: bv8 := 0x81

  // ---------------------------------------------------------------------
  // Error bitmap
  // ---------------------------------------------------------------------

  /** `get_bit`: bit `k % 8` of byte `k / 8`, that is, 1 exactly when that
      byte has the bit's mask set. */
  function GetBit(bits: seq<bv8>, k: nat): (b: nat)
    requires k / 8 < |bits|
    ensures b <= 1
    ensures b == 1 <==> bits[k / 8] & (1 << (k % 8)) != 0
  {
    ShiftMask(bits[k / 8], k % 8);
    if (bits[k / 8] >> (k % 8)) & 1 == 1 then 1 else 0
  }

  /** `set_bit`: bit `k` becomes 1 and every other bit keeps its value. */
  function SetBit(bits: seq<bv8>, k: nat): (r: seq<bv8>)
    requires k / 8 < |bits|
    ensures |r| == |bits|
    ensures GetBit(r, k) == 1
    ensures forall j :: 0 <= j < 8 * |bits| && j != k ==> GetBit(r, j) == GetBit(bits, j)
  {
    var r := bits[k / 8 := bits[k / 8] | (1 << (k % 8))];
    BitSet(bits[k / 8], k % 8);
    forall j | 0 <= j < 8 * |bits| && j != k
      ensures GetBit(r, j) == GetBit(bits, j)
    {
      if j / 8 == k / 8 {
        BitOther(bits[k / 8], k % 8, j % 8);
      }
    }
    r
  }

  /** Shifting bit `a` down and testing bit 0 agrees with testing the mask. */
  lemma ShiftMask(x: bv8, a: nat)
    requires a < 8
    ensures (x >> a) & 1 == 1 <==> x & (1 << a) != 0
  {
  }

  lemma BitSet(x: bv8, a: nat)
    requires a < 8
    ensures ((x | (1 << a)) >> a) & 1 == 1
  {
  }

  lemma BitOther(x: bv8, a: nat, b: nat)
    requires a < 8 && b < 8 && a != b
    ensures ((x | (1 << a)) >> b) & 1 == (x >> b) & 1
  {
  }

  /** A bitmap with no bit set. */
  predicate NoErrors(bits: seq<bv8>) {
    forall i :: 0 <= i < |bits| ==> bits[i] == 0
  }

  // ---------------------------------------------------------------------
  // Percentage
  // ---------------------------------------------------------------------

  /** `doneBlocks`: blocks plus errors, clamped to the map's total. */
  function Clamped(s: Session, total: nat): (d: nat)
    ensures d <= total
    ensures d == total <==> Done(s) >= total
    ensures Done(s) <= total ==> d == Done(s)
  {
    Min(Done(s), total)
  }

  /** Progress in hundredths of a percent. */
  function Percent(s: Session, total: nat): (p: nat)
    requires total > 0
    ensures p <= 10000
    ensures p == 10000 <==> Done(s) >= total
  {
    var d := Clamped(s, total);
    PercentScale(d, total);
    d * 10000 / total
  }

  /** Scaling to hundredths of a percent reaches 10000 only at the total. */
  lemma PercentScale(d: nat, total: nat)
    requires 0 < total && d <= total
    ensures d * 10000 / total <= 10000
    ensures d * 10000 / total == 10000 <==> d == total
  {
    var q := d * 10000 / total;
    assert q * total <= d * 10000;
    if d == total {
      assert d * 10000 == 10000 * total;
    } else {
      assert d * 10000 < 10000 * total;
    }
  }

  /** The progress screen shows 100.00% exactly when the session's own
      completion test fires: both compare the same 16-bit sum with the same
      total. */
  lemma FullPercentIffComplete(s: Session)
    requires s.state == Transfer
    ensures Percent(s, ActiveMap(s).totalBlocks) == 10000 <==> CheckComplete(s).state == Complete
  {
  }

  // ---------------------------------------------------------------------
  // Gauge
  // ---------------------------------------------------------------------

  /** The block a gauge column stands for: `col * total / 120`, computed in
      32 bits (no overflow for 16-bit totals). */
  function ColumnBlock(col: nat, total: nat): (b: nat)
    requires col < BAR_WIDTH
    ensures b <= total
    ensures total > 0 ==> b < total
  {
    assert col * total <= 119 * total;
    col * total / BAR_WIDTH
  }

  /** Columns further right never stand for earlier blocks. */
  lemma ColumnBlockMonotone(c1: nat, c2: nat, total: nat)
    requires c1 <= c2 < BAR_WIDTH
    ensures ColumnBlock(c1, total) <= ColumnBlock(c2, total)
  {
    assert c1 * total <= c2 * total;
  }

  /** One column: full when its block is processed and its error bit clear. */
  function GaugeCell(bits: seq<bv8>, done: nat, total: nat, col: nat): bv8
    requires |bits| == ERROR_BITMAP_BYTES && total <= BAR_WIDTH && col < BAR_WIDTH
  {
    var b := ColumnBlock(col, total);
    if b < done && GetBit(bits, b) == 0 then CELL_OK else CELL_EMPTY
  }

  /** The gauge row: a column is full exactly when its block has been
      processed and has no error recorded; every other column is empty. */
  function Gauge(bits: seq<bv8>, done: nat, total: nat): (g: seq<bv8>)
    requires |bits| == ERROR_BITMAP_BYTES && total <= BAR_WIDTH
    ensures |g| == BAR_WIDTH
    ensures forall col :: 0 <= col < BAR_WIDTH ==>
              (g[col] == CELL_OK <==> ColumnBlock(col, total) < done && GetBit(bits, ColumnBlock(col, total)) == 0)
    ensures forall col :: 0 <= col < BAR_WIDTH ==> g[col] == CELL_OK || g[col] == CELL_EMPTY
  {
    seq(BAR_WIDTH, col requires 0 <= col < BAR_WIDTH => GaugeCell(bits, done, total, col))
  }

  /** Without errors the gauge fills from the left: a full column has only
      full columns to its left. */
  lemma GaugeFillsFromLeft(bits: seq<bv8>, done: nat, total: nat, c1: nat, c2: nat)
    requires |bits| == ERROR_BITMAP_BYTES && total <= BAR_WIDTH && NoErrors(bits)
    requires c1 <= c2 < BAR_WIDTH
    ensures Gauge(bits, done, total)[c2] == CELL_OK ==> Gauge(bits, done, total)[c1] == CELL_OK
  {
    ColumnBlockMonotone(c1, c2, total);
    var b := ColumnBlock(c1, total);
    assert GetBit(bits, b) == 0 by {
      assert bits[b / 8] == 0;
    }
  }

  /** Without errors, once every block is processed the whole gauge is full. */
  lemma GaugeFullWhenDone(bits: seq<bv8>, total: nat, col: nat)
    requires |bits| == ERROR_BITMAP_BYTES && 0 < total <= BAR_WIDTH && NoErrors(bits)
    requires col < BAR_WIDTH
    ensures Gauge(bits, total, total)[col] == CELL_OK
  {
    var b := ColumnBlock(col, total);
    assert bits[b / 8] == 0;
  }

  // ---------------------------------------------------------------------
  // Rendering
  // ---------------------------------------------------------------------

  /** What the screen shows: the title (chosen from the state before the
      reset), the percentage as computed, whether the progress line carrying
      it stays on screen (it is printed only once a session has been started,
      and a Ready screen overwrites it with the memory caption), and the
      gauge row. */
  datatype Screen = Screen(title: State, percent: nat, progressShown: bool, gauge: seq<bv8>)

  datatype Rendered = Rendered(session: Session, screen: Screen)

  /** `UI_DisplayAircopy`. Rendering a complete session acknowledges it
      (the state returns to Ready). While a session is running, a change in
      the error counter since the last render marks the last processed block
      as faulty and records the new count. The gauge shows a full column
      exactly for a processed block without a recorded error, and only while
      a session is running. */
  function Render(s: Session): (r: Rendered)
    requires SessionOk(s)
    ensures SessionOk(r.session)
    ensures r.session == s.(state := if s.state == Complete then Ready else s.state,
                            mapIndex := NormalizeIndex(s.mapIndex),
                            shownErrors := r.session.shownErrors, errorBits := r.session.errorBits)
    ensures r.screen.title == s.state
    ensures r.screen.percent == Percent(s, ActiveMap(s).totalBlocks)
    ensures r.screen.progressShown <==> s.step != 0 && s.state == Transfer
    ensures |r.screen.gauge| == BAR_WIDTH
    ensures var d := Clamped(s, ActiveMap(s).totalBlocks);
            if s.state == Transfer && d > 0 && s.errors != s.shownErrors then
              && r.session.shownErrors == s.errors
              && r.session.errorBits == SetBit(s.errorBits, d - 1)
            else
              && r.session.shownErrors == s.shownErrors
              && r.session.errorBits == s.errorBits
    ensures forall col :: 0 <= col < BAR_WIDTH ==>
              (r.screen.gauge[col] == CELL_OK <==>
                 && s.state == Transfer
                 && ColumnBlock(col, ActiveMap(s).totalBlocks) < Clamped(s, ActiveMap(s).totalBlocks)
                 && GetBit(r.session.errorBits, ColumnBlock(col, ActiveMap(s).totalBlocks)) == 0)
    ensures forall col :: 0 <= col < BAR_WIDTH && r.screen.gauge[col] != CELL_OK ==>
              r.screen.gauge[col] ==
                if s.step != 0 || (s.state == Transfer && Clamped(s, ActiveMap(s).totalBlocks) > 0)
                then CELL_EMPTY else 0
  {
    var s1 := s.(state := if s.state == Complete then Ready else s.state,
                 mapIndex := NormalizeIndex(s.mapIndex));
    var total := ActiveMap(s).totalBlocks;
    var clamped := Clamped(s, total);
    var percent := Percent(s, total);
    var shown := s.step != 0 && s1.state != Ready;
    var doneBlocks := if s1.state == Ready then 0 else clamped;
    var s2 := if doneBlocks > 0 && s.errors != s.shownErrors
              then s1.(errorBits := SetBit(s1.errorBits, doneBlocks - 1), shownErrors := s.errors)
              else s1;
    Rendered(s2, Screen(s.state, percent, shown, DrawGauge(s2.errorBits, s.step, doneBlocks, total)))
  }

  /** The gauge row as drawn: the empty frame cells when the step is set,
      then, once blocks have been processed, a full cell for each column
      whose block is processed without a recorded error and an empty one
      for every other column. */
  function DrawGauge(bits: seq<bv8>, step: u8, done: nat, total: nat): (g: seq<bv8>)
    requires |bits| == ERROR_BITMAP_BYTES && total <= BAR_WIDTH
    ensures |g| == BAR_WIDTH
    ensures forall col :: 0 <= col < BAR_WIDTH ==>
              (g[col] == CELL_OK <==> ColumnBlock(col, total) < done && GetBit(bits, ColumnBlock(col, total)) == 0)
    ensures forall col :: 0 <= col < BAR_WIDTH && g[col] != CELL_OK ==>
              g[col] == if step != 0 || done > 0 then CELL_EMPTY else 0
  {
    if done > 0 then Gauge(bits, done, total)
    else
      var blank: bv8 := if step != 0 then CELL_EMPTY else 0;
      seq(BAR_WIDTH, col => blank)
  }
}
